=== FILE: README.md ===
# light-cluster-card in Dafny

A model of the light-cluster card for the Home Assistant dashboard, and of its
configuration editor. The card controls several lights as one. It has a
header with a toggle, a brightness slider and a colour-temperature slider
that show the least value across the lights, an effect dropdown, and the
service calls that the toggle, the sliders and the dropdown issue.

The model keeps the values that the card and the editor feed into their
templates and the decisions behind them. It leaves out the markup.

- `js.dfy` (`Js`): the slice of JavaScript's value model the code relies on.
  It covers dynamically typed values, truthiness, property reads that give
  `undefined`, object spread, `split('.')[0]` and array `indexOf`.
- `js_number.dfy` (`JsNumber`): `String(n)`, `parseInt(s, 0)` on integer
  text, and the truncating quotient `parseInt(a / b)`.
- `hass.dfy` (`Hass`): entity state records and the state map `hass.states`,
  in `Object.values` order.
- `utils.dfy` (`Utils`): `getEntityName`, `getEntityByName`, `getEntityById`.
- `card_logic.dfy` (`CardLogic`): the card's pure rules. These are
  configuration set-up, resolution of the configured ids, the on/off
  predicates, `getMinValue`, `getAttributeList`, `showPercent`, the sliders'
  values, effect-list resolution, and the shape of every service call.
- `card.dfy` (`Card`): the card object, a class with three fields:
  - `config`;
  - the re-entrancy flag `_isUpdating`;
  - the log of `hass.callService` calls.

  Each method is proved against the functions of `CardLogic`.
- `editor.dfy` (`Editor`): the editor.
  - Its pure part covers header derivation, the `light.` picklist and the
    entity-list edit.
  - Its class has `config`, `hass`, `firstRendered` and the log of
    `config-changed` events.

The default configuration table lives in `src/defaults.js`, which is not part
of this model. Both classes take it as a constructor parameter.

The editor's `configChanged` tests `checkedValue !== undefined ||
checkedValue !== null`, where `checkedValue` is the event's `detail.value`.
That test holds for every value, so the handler always stores `detail.value`,
even `undefined`, and never the target's `value`. The model does the same.

Three points worth knowing about the code, each of which a reader of the
card's options might expect to go the other way:

- The percent label truncates toward zero (`parseInt` of the quotient). It is
  not a floor, and the value is not clamped to the range.
- `createEffectList` computes the union of the entities' `effect_list`
  attributes before it looks at the override. An entity without such a list
  therefore makes the render throw even when an explicit list is configured.
- Only `render` raises the re-entrancy flag `_isUpdating`, and only `updated`
  clears it; `callEntityService` reads it but never sets it. A command
  therefore does not block the next one: two commands with no render between
  them both go through. While the flag is up, every command is dropped, the
  toggle included, not only slider and effect changes.

## Model

| member | source | states |
|---|---|---|
| Js.Truthy | src/index.js:30 | false exactly for `undefined`, `null`, `false`, 0 and the empty string |
| Js.Spread | src/index.js:32-35 | `{...base, ...over}` has the keys of both; a key of `over` reads its value there, any other key reads as in `base` |
| Js.IndexOf | src/index.js:260 | -1 exactly when the element is absent; otherwise the first position holding it |
| Js.Before | src/index.js:310 | `split(c)[0]` is a prefix without `c` that ends at the first `c` or at the end |
| JsNumber.NatToString | src/index.js:276 | `String(n)` is a non-empty run of decimal digits |
| JsNumber.DecimalValueOfNatToString | src/index.js:276 | the decimal digits of `String(n)` denote `n` |
| JsNumber.ToJsString | src/index.js:276 | `String(v)` of a string is that string, of a number reads back through `parseInt` as that number, and of `undefined`, `null` or a boolean is non-empty |
| JsNumber.ParseInt | src/index.js:276 | blank text is `NaN`; a negative result needs a leading minus after the white space |
| JsNumber.ParseIntOfIntToString | src/index.js:276 | `parseInt(String(n), 0) == n` for every integer, negative ones included |
| JsNumber.TruncDiv | src/index.js:207 | the quotient has the magnitude of the floor of the magnitudes' quotient, and it is positive only when the operands have the same sign |
| Hass.ValuesAt | src/utils.js:6-7 | `Object.values` holds each record of an enumerated id and nothing else; when every id is a key, the i-th record is the i-th enumerated id's, the order `find` walks |
| Hass.ValuesOfValidStates | src/utils.js:6-7 | over a state map that enumerates each key once, `Object.values` has one record per key and holds exactly the map's records |
| Utils.EntityName | src/utils.js:1-3 | a truthy `friendly_name` is the name; otherwise the entity id |
| Utils.EntityByName | src/utils.js:5-9 | a found entity is enumerated and carries the name; not-found exactly when no enumerated entity carries it |
| Utils.FirstNamed | src/utils.js:6-8 | `find` stops at the first entity carrying the name, or reports none when no entity carries it |
| Utils.EntityById | src/utils.js:11-13 | lookup by id finds `states[eid]` and nothing when the key is absent |
| Utils.EntityByNameIsFirstMatch | src/utils.js:5-9 | lookup by name gives an enumerated entity with that name and none before it has the name; not-found means no entity has it; over a well-formed state map, not-found means no record of the map has the name and a found entity is one of the map's records |
| Utils.EntityByNameAgreesWithById | src/utils.js:5-13 | when some enumerated entity has the name, lookup by name succeeds with an entity that lookup by id also finds |
| CardLogic.ConfigSetup | src/index.js:29-36 | fails with `entity id list required.` exactly when `entities` is falsy; otherwise the defaults are overridden field by field by the input |
| CardLogic.ConfiguredIds | src/index.js:100-101 | the configured ids are there exactly when `entities` is an array, and are its elements; any other value has no `map` |
| CardLogic.ResolveEntities | src/index.js:100-102 | the resolved list holds each record of a configured id present in the state map, and nothing else |
| CardLogic.ResolveEntitiesAppend | src/index.js:100-102 | resolution keeps configured order: it distributes over concatenation |
| CardLogic.ResolveEntitiesEmpty | src/index.js:100-104 | nothing resolves exactly when no configured id is in the state map |
| CardLogic.Resolution | src/index.js:100-106 | a non-array `entities` throws a `TypeError`; a successful resolution is never empty |
| CardLogic.NothingResolvesIsConfigError | src/index.js:100-105 | when no configured id is in the state map, resolution and `render` throw `Invalid entity list: ` followed by the ids joined with `, ` |
| CardLogic.ResolutionSucceeds | src/index.js:100-106 | resolution succeeds exactly when some configured id is present, and then yields the resolved list |
| CardLogic.IsEntityOn | src/index.js:82-84 | `undefined` is never on; a record is on exactly when its state is `on` |
| CardLogic.AreEntitiesOn | src/index.js:77-88 | true exactly when every configured id maps to an entity whose state is `on` (an unresolved id is not on) |
| CardLogic.EntitiesOn | src/index.js:77-92 | every entity returned is on, and there are no more of them than configured ids |
| CardLogic.EntitiesOnAreResolvedOn | src/index.js:90-102 | the targets of slider and effect changes are exactly the resolved entities that are on, in configured order |
| CardLogic.AllOnMeansAllResolvedOn | src/index.js:86-92 | when all configured entities are on, slider commands reach every resolved entity |
| CardLogic.MinStep | src/index.js:135 | one step keeps the accumulator or takes the reading; it takes the reading after the sentinel, keeps `undefined`, keeps the accumulator against an `undefined` reading, and otherwise keeps the smaller number |
| CardLogic.MinValue | src/index.js:134-136 | the reduction over no entities is the sentinel -1 |
| CardLogic.MinValueIsMinimum | src/index.js:134-136 | over readings that are all numbers other than -1, the result is one of them and is no larger than any |
| CardLogic.MinValueUndefinedFirst | src/index.js:134-136 | a first entity without the attribute makes the result `undefined`, whatever follows |
| CardLogic.AttributeLists | src/index.js:125-127 | every entity's attribute is a list, or some entity's is not (and `forEach` throws) |
| CardLogic.AttributeList | src/index.js:125-132 | throws exactly when some entity's attribute is not a list; otherwise no element twice, and exactly the elements of the entities' lists |
| CardLogic.AddAllAppend | src/index.js:126-129 | adding two lists one after the other equals adding their concatenation |
| CardLogic.UnionOfIsAddAll | src/index.js:126-129 | the per-entity reduction is one pass over all lists concatenated |
| CardLogic.AddAllIsFirstOccurrences | src/index.js:126-131 | a set filled from empty holds each item once, exactly the items, in order of first occurrence |
| CardLogic.AttributeListIsOrderedUnion | src/index.js:125-132 | `getAttributeList` returns every element of every entity's list, without duplicates, in first-occurrence order |
| CardLogic.InFlatten | src/index.js:126-129 | an element occurs in the concatenated lists exactly when some entity's list holds it |
| CardLogic.Percent | src/index.js:207-208 | 0 when an operand is `undefined` or the range is empty |
| CardLogic.ShowPercent | src/index.js:205-211 | no label unless `show_slider_percent` is truthy; otherwise the percent |
| CardLogic.PercentTruncates | src/index.js:207 | the percent is `(v - lo) * 100 / (hi - lo)` truncated toward zero: its magnitude times the width bounds the numerator from below, one more width bounds it from above, and its sign is the quotient's |
| CardLogic.PercentWithinRange | src/index.js:207-208 | a value inside a non-empty range gives a percent between 0 and 100 |
| CardLogic.BrightnessPercentExamples | src/index.js:193-208 | brightness 127, 0 and 254 of the range 0..254 read as 50, 0 and 100 percent |
| CardLogic.BrightnessSlider | src/index.js:179-194 | the value is -1 with no entities; a percent is shown exactly when `show_slider_percent` is set, and lies in 0..100 for a value in 0..254 |
| CardLogic.ColorTemperature | src/index.js:218-229 | value and bounds are -1 with no entities; a percent is shown exactly when `show_slider_percent` is set; it is 0 when a reading is `undefined` or the bounds agree, and lies in 0..100 for a value between `min - 1` and `max - 1` |
| CardLogic.SlidersShowMinima | src/index.js:188-229 | the slider values and colour-temperature bounds are the per-attribute minima; brightness shows its percent of 0..254 iff the flag is set; colour temperature's percent uses `min - 1` and `max - 1` |
| CardLogic.OptionsOf | src/index.js:254-259 | a referenced entity's `options` list is used as is, a falsy one gives the empty list, and a truthy non-list has no `map` and throws a `TypeError`, exactly then |
| CardLogic.SelectedIndex | src/index.js:260 | the position of the first entity's effect in the list: its first occurrence, or -1 when there is no entity or the effect is not listed |
| CardLogic.EffectList | src/index.js:247-259 | throws when the union of `effect_list` throws, and whatever it throws is a `TypeError` |
| CardLogic.EffectDropdown | src/index.js:247-260 | fails exactly when the effect list does, with a `TypeError`; otherwise shows that list, and the selection is the first entity's effect's first position in it (`SelectedIndex`), or -1 |
| CardLogic.EffectListPrecedence | src/index.js:250-257 | an array override is used verbatim; else an override naming a present entity gives its `options`; else the union of the `effect_list` attributes |
| CardLogic.EffectListThrowsWithoutLists | src/index.js:250-253 | an entity without an `effect_list` array makes the effect list throw, whatever the override |
| CardLogic.RenderView | src/index.js:98-172 | a failed resolution is the render's error; otherwise the view holds the resolved entities and each control appears exactly when its flag is set; the header shows the configured `header` and its toggle is checked exactly when all configured entities are on; the sliders show `BrightnessSlider` and `ColorTemperature` of the resolved entities and the dropdown `EffectDropdown`; a resolved render never throws when the effect list is off or the dropdown succeeds |
| CardLogic.ResolvedRenderThrowsOnlyTypeErrors | src/index.js:98-106 | when every configured id resolves, render never throws the configuration error; anything it throws is a `TypeError` |
| CardLogic.RenderSucceedsWhenAllResolve | src/index.js:98-106 | when all configured ids resolve, render does not throw, provided that, when the effect list is shown, every entity carries an `effect_list` array and a referenced entity's `options` is a list or falsy |
| CardLogic.Domain | src/index.js:310 | the domain is the id's prefix up to, not including, the first dot |
| CardLogic.ServiceName | src/index.js:311 | the service is never empty: a non-empty `state`, otherwise `turn_on` |
| CardLogic.CallFor | src/index.js:309-314 | one call to the entity's domain with the given service, whose data holds the payload's keys plus `entity_id`, which is the entity's id unless the payload overrides it |
| CardLogic.CallsFor | src/index.js:309-315 | one call per entity |
| CardLogic.CallsForEachEntity | src/index.js:309-315 | one call per entity, the i-th to the i-th entity |
| CardLogic.ToggleService | src/index.js:286-287 | `turn_off` exactly when every configured entity is on; `turn_on` exactly when some is not |
| Card.LightClusterCard.SetConfig | src/index.js:29-36 | throws and keeps the configuration when `entities` is falsy; otherwise stores the input laid over the defaults |
| Card.LightClusterCard.Render | src/index.js:98-108 | the render's result is `RenderView`; `_isUpdating` is raised exactly when resolution succeeds |
| Card.LightClusterCard.Updated | src/index.js:94-96 | `_isUpdating` is cleared |
| Card.LightClusterCard.CallEntityService | src/index.js:306-316 | nothing is called while `_isUpdating` is set; otherwise one call per entity is appended, in order, with service `state` or `turn_on` |
| Card.LightClusterCard.SetToggle | src/index.js:286-289 | the toggle's command goes to every entity the render passed |
| Card.LightClusterCard.SetValue | src/index.js:275-279 | `NaN` input issues nothing; a number goes under the slider's attribute name to the configured entities that are on |
| Card.LightClusterCard.SetEffect | src/index.js:296-298 | the chosen effect goes to the configured entities that are on |
| Card.NumericSliderValueIsSent | src/index.js:275-278 | with the flag down, a slider input `n` sends `{[valueName]: n}` unchanged to the configured entities that are on |
| Card.GuardDropsCommandsUntilUpdated | src/index.js:94-108 | between a render and the next `updated`, toggle, slider and effect commands are all dropped; after `updated` the toggle gets through |
| Card.CommandsDoNotRaiseGuard | src/index.js:306-316 | with the flag down, two toggles in a row both send their full batch and leave the flag down |
| Editor.SecondSegment | src/index-editor.js:47 | undefined exactly when the id has no dot; otherwise a dot-free segment that follows the first segment and its dot |
| Editor.SecondSegmentOf | src/index-editor.js:47 | the second dot-separated segment of `a.name…` is `name` |
| Editor.NoDotNoSecondSegment | src/index-editor.js:47 | an id without a dot has no second segment |
| Editor.Capitalize | src/index-editor.js:49 | the first character is upper-cased and the rest is kept |
| Editor.DerivedHeader | src/index-editor.js:45-52 | a truthy `header` or a falsy `entity` keeps the header; a truthy non-string `entity` throws a `TypeError`, and only then; a header that changes is the capitalised non-empty second segment of the `entity` id |
| Editor.DerivedHeaderWithoutDot | src/index-editor.js:46-48 | with an empty header and an `entity` id without a dot, the header stays as configured |
| Editor.DerivedHeaderFromEntity | src/index-editor.js:46-52 | with an empty header, the header is the capitalised second segment of the entity id, and stays as configured when that segment is empty |
| Editor.LightEntities | src/index-editor.js:54-56 | the picklist's entities are exactly the enumerated records whose id starts with `light.` |
| Editor.Listed | src/index-editor.js:64 | in an array, an id is listed exactly when it is an element; in a string, a prefix is listed; any other value lists nothing |
| Editor.EntityOptions | src/index-editor.js:58-69 | one checkbox per light; throws only when there are lights and `entityIds` is neither an array nor a string |
| Editor.PicklistIsLightEntities | src/index-editor.js:54-65 | each checkbox carries a light's id and display name, and is checked iff the id is in `entityIds`; over a well-formed state map the lights are exactly the map's records with a `light.` id |
| Editor.EditorRender | src/index-editor.js:38-162 | nothing before `hass`; a missing configuration throws, and every throw is a `TypeError`; a shown form holds the derived header, the picklist, both icons and every flag as configured; the form is shown whenever `hass` and a configuration are present and the header and the picklist do not throw |
| Editor.SpreadIds | src/index-editor.js:191 | an array is copied as is, a string spreads into its characters, and anything else is not iterable |
| Editor.SpliceOne | src/index-editor.js:196 | a start before the end of a non-empty list removes exactly one element; a start past the end removes nothing; no element is added |
| Editor.ToggledIds | src/index-editor.js:191-197 | checking appends `value` after the old list; unchecking removes one element of a non-empty list and adds none |
| Editor.ToggledIdsCases | src/index-editor.js:191-197 | checking appends, duplicates included; unchecking removes the first occurrence (one fewer copy), and an absent id removes the last one, while an empty list stays empty |
| Editor.CheckThenUncheck | src/index-editor.js:193-197 | checking an unlisted id and then unchecking it restores the list |
| Editor.OneFieldChanged | src/index-editor.js:209 | a handler's new configuration differs from the old one in exactly the field it sets |
| Editor.LightClusterCardEditor.Ready | src/index-editor.js:170 | the handlers' guard holds only with a configuration, `hass` and a finished first render |
| Editor.LightClusterCardEditor.SetHass | src/index-editor.js:23-25 | the host's `hass` is stored |
| Editor.LightClusterCardEditor.SetConfig | src/index-editor.js:27-32 | the input laid over the defaults is stored, unchecked |
| Editor.LightClusterCardEditor.FirstUpdated | src/index-editor.js:34-36 | `firstRendered` becomes true (no other method may change it) |
| Editor.LightClusterCardEditor.Render | src/index-editor.js:38-41 | nothing is shown before the host supplies `hass` |
| Editor.LightClusterCardEditor.ConfigChanged | src/index-editor.js:169-183 | no change and no event unless config, hass and first render are present; otherwise `detail.value` is stored under the field and one event carries the new configuration |
| Editor.LightClusterCardEditor.EntitiesConfigChanged | src/index-editor.js:185-201 | no change unless ready; a non-iterable `entityIds` throws and changes nothing; otherwise the toggled copy is stored and emitted |
| Editor.LightClusterCardEditor.CheckboxConfigChanged | src/index-editor.js:203-212 | no change unless ready; otherwise the field takes the checked state and one event carries the new configuration |

## Left out

- Markup: the templates, class-name strings, styles (`src/style.js`, the editor's style file) and the build configuration. Only the values fed into the templates are modelled.
- Registration with the host: `customElements.define`, `window.customCards` and `getConfigElement`.
- The card's `firstUpdated`, which awaits the host's `loadCardHelpers`. It is a foreign asynchronous call.
- The `language` getter, which is a host lookup, so the effect dropdown's caption is not modelled; `console.log` in `render` is also left out.
- `getCardSize`: `parseInt(10, 1)` is `NaN` for every input, so it has no contract worth stating.
- `hass.callService` is modelled as appending `(domain, service, data)` to a log. `fireEvent` is modelled as appending the emitted configuration to a log, and the event options are not modelled.
- `src/defaults.js` is not part of this model, so the default table is a constructor parameter.
- Numbers are integers. The floating-point quotient in `showPercent` is modelled as exact and truncated toward zero. `parseInt` reads only integer text: it trims the white space, reads a sign and an optional `0x` prefix, then the leading digits.
- CardLogic.MinStep: a non-numeric attribute reads as `undefined`, so JavaScript's coercion in `<` is not modelled. A string reading is compared as a number there, and `null` compares as 0 while keeping its value: the source reduces the readings `[200, null]` to `null`, where the model gives 200.
- An entity without an attribute bag is modelled with an empty bag. For `getEntityName`, `options` and `getAttributeList` (which throws in both, because `undefined` is not a list) the behaviour is the same. In `getMinValue`, and when the first entity reads its `effect` for the dropdown's selection, the source throws instead, where CardLogic.MinValue reads `undefined` and CardLogic.SelectedIndex gives -1.
- Property names inherited from `Object.prototype` (such as `constructor`) are not modelled in state-map lookups.
- Editor.ToUpper: upper-cases the letters a to z only; other characters of `toUpperCase` are kept as they are.
- Editor.SpreadIds: spreading a string gives its characters; surrogate pairs are not treated specially.
- The state map's enumeration order is a separate list. Lemmas that talk about "enumerated" records say "the map's records" only under Hass.ValidStates, which holds for every `hass.states` the host supplies.
- Card.LightClusterCard.SetToggle, Card.LightClusterCard.SetValue and Card.LightClusterCard.SetEffect require a configuration whose `entities` is an array. That holds when the render that bound the handlers succeeded and no later `setConfig` stored a truthy non-array `entities`; the case where such a `setConfig` comes between the render and the event (where `this.entities` throws) is not modelled.
- Card.LightClusterCard.Render takes the state map as a parameter. The case where the host has not yet set `hass`, in which `render` throws on `this.__hass.states`, is not modelled.
- `entitiesConfigChanged` splices a fresh copy. The model computes the copy as a value, so the copy's in-place update is not modelled, but it is never shared.
- Array elements other than strings (in `entities`, `effect_list`, `options`, `entityIds`) are not modelled: every list holds strings.
- Equality of arrays by identity in `getEntityByName` is modelled as never equal, since no two arrays met there are the same object.

=== FILE: card.dfy ===
/**
 * The light-cluster card as an object: its configuration, its re-entrancy
 * flag `_isUpdating`, and the service calls it has handed to the host, in
 * order. The host drives it: `setConfig`, then `render` and `updated` once
 * per render pass, and the event handlers bound by a render.
 */
module Card {
  import opened Js
  import opened JsNumber
  import opened Hass
  import opened CardLogic

  class LightClusterCard {
    /** The static default table that `setConfig` lays the input over. */
    const defaults: Object
    /** `this.config`; `None` until `setConfig` succeeds. */
    var config: Option<Object>
    /** `this._isUpdating`: set by `render`, cleared by `updated`. */
    var isUpdating: bool
    /** Every `hass.callService(domain, service, data)` made so far. */
    var calls: seq<ServiceCall>

    constructor (defaults: Object)
      ensures this.defaults == defaults
      ensures config == None && !isUpdating && calls == []
    {
      this.defaults := defaults;
      config := None;
      isUpdating := false;
      calls := [];
    }

    /** The configured ids the handlers read through `this.entities`. */
    function Ids(): seq<string>
      reads this
      requires config.Some? && ConfiguredIds(config.value).Some?
    {
      ConfiguredIds(config.value).value
    }

    /** `setConfig(config)`: throws, and keeps the old configuration, when
        `entities` is falsy; otherwise stores the input laid over the
        defaults. */
    method SetConfig(input: Object) returns (thrown: Option<Error>)
      modifies this`config
      ensures thrown.Some? <==> !Truthy(Get(input, "entities"))
      ensures thrown.Some? ==> thrown.value == ConfigError("entity id list required.") && config == old(config)
      ensures thrown.None? ==> config == Some(Spread(defaults, input))
    {
      var r := ConfigSetup(defaults, input);
      match r {
        case Err(e) =>
          thrown := Some(e);
        case Ok(c) =>
          config := Some(c);
          thrown := None;
      }
    }

    /** `render()`: resolves the configured ids (throwing when none
        resolves), raises `_isUpdating`, then builds the controls, which may
        still throw in the effect list. */
    method Render(states: States) returns (view: Result<CardView>)
      modifies this`isUpdating
      ensures config.None? ==> view == Err(TypeError) && isUpdating == old(isUpdating)
      ensures config.Some? ==> view == RenderView(config.value, states)
      ensures config.Some? ==> isUpdating == (old(isUpdating) || Resolution(config.value, states).Ok?)
    {
      if config.None? {
        return Err(TypeError);
      }
      var resolved := Resolution(config.value, states);
      if resolved.Err? {
        return Err(resolved.error);
      }
      isUpdating := true;
      view := RenderView(config.value, states);
    }

    /** `updated()`: the render pass completed; commands flow again. */
    method Updated()
      modifies this`isUpdating
      ensures !isUpdating
    {
      isUpdating := false;
    }

    /** `callEntityService(payload, entities, state)`: nothing while
        `_isUpdating` is set; otherwise one call per entity, in order, to
        the entity's domain, with service `state || 'turn_on'`. */
    method CallEntityService(payload: Object, entities: seq<Entity>, state: Option<string>)
      modifies this`calls
      ensures isUpdating ==> calls == old(calls)
      ensures !isUpdating ==> calls == old(calls) + CallsFor(payload, entities, ServiceName(state))
    {
      if isUpdating {
        return;
      }
      var service := ServiceName(state);
      var i := 0;
      while i < |entities|
        invariant 0 <= i <= |entities|
        invariant calls == old(calls) + CallsFor(payload, entities[..i], service)
      {
        var e := entities[i];
        calls := calls + [CallFor(payload, e, service)];
        i := i + 1;
        assert entities[..i][..i - 1] == entities[..i - 1];
      }
      assert entities[..i] == entities;
    }

    /** `setToggle(event, entities)`: `turn_off` when every configured entity
        is on, `turn_on` otherwise, sent to every entity the render resolved. */
    method SetToggle(states: States, entities: seq<Entity>)
      requires config.Some? && ConfiguredIds(config.value).Some?
      modifies this`calls
      ensures isUpdating ==> calls == old(calls)
      ensures !isUpdating ==> calls == old(calls) + CallsFor(map[], entities, ToggleService(Ids(), states))
    {
      var service := ToggleService(Ids(), states);
      CallEntityService(map[], entities, Some(service));
    }

    /** `_setValue(event, entities, valueName)`: the slider's value through
        `parseInt`; `NaN` issues nothing, a number goes as `valueName` to the
        configured entities that are on. */
    method SetValue(states: States, input: Value, valueName: string)
      requires config.Some? && ConfiguredIds(config.value).Some?
      modifies this`calls
      ensures isUpdating || ParseInt(ToJsString(input)).None? ==> calls == old(calls)
      ensures !isUpdating && ParseInt(ToJsString(input)).Some? ==>
        calls == old(calls) + CallsFor(map[valueName := Num(ParseInt(ToJsString(input)).value)],
                                       EntitiesOn(Ids(), states), "turn_on")
    {
      var parsed := ParseInt(ToJsString(input));
      if parsed.None? {
        return;
      }
      CallEntityService(map[valueName := Num(parsed.value)], EntitiesOn(Ids(), states), None);
    }

    /** `setEffect(event, entities)`: the chosen effect goes to the
        configured entities that are on. */
    method SetEffect(states: States, effect: Value)
      requires config.Some? && ConfiguredIds(config.value).Some?
      modifies this`calls
      ensures isUpdating ==> calls == old(calls)
      ensures !isUpdating ==> calls == old(calls) + CallsFor(map["effect" := effect], EntitiesOn(Ids(), states), "turn_on")
    {
      CallEntityService(map["effect" := effect], EntitiesOn(Ids(), states), None);
    }
  }

  /** A slider value that arrives as a number is sent unchanged, under the
      slider's attribute name, to the configured entities that are on. */
  method NumericSliderValueIsSent(card: LightClusterCard, states: States, n: int, valueName: string)
    requires card.config.Some? && ConfiguredIds(card.config.value).Some?
    requires !card.isUpdating
    modifies card
    ensures card.calls == old(card.calls) + CallsFor(map[valueName := Num(n)], EntitiesOn(old(card.Ids()), states), "turn_on")
  {
    card.SetValue(states, Num(n), valueName);
  }

  /** Between a render and the `updated` that follows it no command gets
      through: the card drops the toggle, a slider move and an effect
      change alike, and issues commands again once `updated` has run. */
  method GuardDropsCommandsUntilUpdated(card: LightClusterCard, states: States, entities: seq<Entity>)
    requires card.config.Some? && ConfiguredIds(card.config.value).Some?
    requires Resolution(card.config.value, states).Ok?
    modifies card
    ensures !card.isUpdating
    ensures card.calls == old(card.calls) + CallsFor(map[], entities, ToggleService(old(ConfiguredIds(card.config.value).value), states))
  {
    var _ := card.Render(states);
    assert card.isUpdating;
    card.SetToggle(states, entities);
    card.SetValue(states, Num(128), "brightness");
    card.SetEffect(states, Str("Rainbow"));
    assert card.calls == old(card.calls);
    card.Updated();
    card.SetToggle(states, entities);
  }

  /** Only `render` raises the guard; a command does not. Two toggles with
      no render between them both get through, each sending the full batch. */
  method CommandsDoNotRaiseGuard(card: LightClusterCard, states: States, entities: seq<Entity>)
    requires card.config.Some? && ConfiguredIds(card.config.value).Some?
    requires !card.isUpdating
    modifies card
    ensures !card.isUpdating
    ensures var batch := CallsFor(map[], entities, ToggleService(old(ConfiguredIds(card.config.value).value), states));
      card.calls == old(card.calls) + batch + batch
  {
    card.SetToggle(states, entities);
    card.SetToggle(states, entities);
  }
}

=== FILE: card_logic.dfy ===
/**
 * The decision rules under the light-cluster card's rendering: set-up of
 * the configuration, resolution of the configured entities, the on/off
 * predicates, the aggregation of several entities into one slider value,
 * the percent label, the effect list and the shape of the service calls.
 */
module CardLogic {
  import opened Js
  import opened JsNumber
  import opened Hass
  import opened Utils

  /* ---------------- configuration ---------------- */

  /** `setConfig`: a configuration whose `entities` field is falsy is
      refused; otherwise the input is laid over the default table. */
  function ConfigSetup(defaults: Object, input: Object): (r: Result<Object>)
    ensures r.Err? <==> !Truthy(Get(input, "entities"))
    ensures r.Err? ==> r.error == ConfigError("entity id list required.")
    ensures r.Ok? ==> forall k :: Get(r.value, k) == if k in input then input[k] else Get(defaults, k)
    ensures r.Ok? ==> r.value.Keys == defaults.Keys + input.Keys
  {
    if !Truthy(Get(input, "entities")) then Err(ConfigError("entity id list required."))
    else Ok(Spread(defaults, input))
  }

  /** The configured entity ids, when `config.entities` is an array; any
      other value has no `map` and makes the card throw. */
  function ConfiguredIds(config: Object): (r: Option<seq<string>>)
    ensures r.Some? <==> Get(config, "entities").StrList?
    ensures r.Some? ==> r.value == Get(config, "entities").items
  {
    match Get(config, "entities")
    case StrList(ids) => Some(ids)
    case _ => None
  }

  /* ---------------- entity resolution ---------------- */

  /** The `render` pipeline `entities.map(eid => getEntityById(states, eid)).filter(Boolean)`:
      the records of the configured ids that are in the state map, in
      configured order. */
  function ResolveEntities(ids: seq<string>, st: States): (r: seq<Entity>)
    ensures |r| <= |ids|
    ensures forall id :: id in ids && id in st.byId ==> st.byId[id] in r
    ensures forall e :: e in r ==> exists id :: id in ids && id in st.byId && st.byId[id] == e
  {
    if ids == [] then []
    else
      var rest := ResolveEntities(ids[1..], st);
      assert forall id :: id in ids ==> id == ids[0] || id in ids[1..];
      ResolvedHead(ids[0], st) + rest
  }

  /** `[getEntityById(states, eid)].filter(Boolean)`. */
  function ResolvedHead(eid: string, st: States): seq<Entity>
  {
    match EntityById(st, eid)
    case Some(e) => [e]
    case None => []
  }

  /** Resolution keeps configured order: resolving a concatenation of id
      lists resolves each part and concatenates the results. */
  lemma {:induction false} ResolveEntitiesAppend(ids1: seq<string>, ids2: seq<string>, st: States)
    ensures ResolveEntities(ids1 + ids2, st) == ResolveEntities(ids1, st) + ResolveEntities(ids2, st)
  {
    if ids1 != [] {
      assert (ids1 + ids2)[0] == ids1[0];
      assert (ids1 + ids2)[1..] == ids1[1..] + ids2;
      ResolveEntitiesAppend(ids1[1..], ids2, st);
      var head := ResolvedHead(ids1[0], st);
      assert ResolveEntities(ids1 + ids2, st) == head + ResolveEntities(ids1[1..] + ids2, st);
      assert ResolveEntities(ids1, st) == head + ResolveEntities(ids1[1..], st);
    } else {
      assert ids1 + ids2 == ids2;
    }
  }

  /** Resolution is empty exactly when no configured id is in the state map. */
  lemma ResolveEntitiesEmpty(ids: seq<string>, st: States)
    ensures ResolveEntities(ids, st) == [] <==> forall id :: id in ids ==> id !in st.byId
  {
  }

  /** The first half of `render`: the resolved entities, or the error it
      throws when `config.entities` is not an array or resolves to nothing. */
  function Resolution(config: Object, st: States): (r: Result<seq<Entity>>)
    ensures r.Ok? ==> r.value != []
    ensures ConfiguredIds(config).None? ==> r == Err(TypeError)
  {
    match ConfiguredIds(config)
    case None => Err(TypeError)
    case Some(ids) =>
      var entities := ResolveEntities(ids, st);
      if entities == [] then Err(ConfigError("Invalid entity list: " + Join(ids, ", ")))
      else Ok(entities)
  }

  /** Resolution succeeds exactly when some configured id is in the state map. */
  lemma ResolutionSucceeds(config: Object, st: States)
    requires ConfiguredIds(config).Some?
    ensures Resolution(config, st).Ok? <==> exists id :: id in ConfiguredIds(config).value && id in st.byId
    ensures Resolution(config, st).Ok? ==> Resolution(config, st).value == ResolveEntities(ConfiguredIds(config).value, st)
  {
    ResolveEntitiesEmpty(ConfiguredIds(config).value, st);
  }

  /** When no configured id is in the state map, `render` throws the
      configuration error that lists the configured ids. */
  lemma NothingResolvesIsConfigError(config: Object, st: States)
    requires ConfiguredIds(config).Some?
    requires forall id :: id in ConfiguredIds(config).value ==> id !in st.byId
    ensures Resolution(config, st) == Err(ConfigError("Invalid entity list: " + Join(ConfiguredIds(config).value, ", ")))
    ensures RenderView(config, st) == Err(ConfigError("Invalid entity list: " + Join(ConfiguredIds(config).value, ", ")))
  {
    ResolveEntitiesEmpty(ConfiguredIds(config).value, st);
  }

  /* ---------------- on/off predicates ---------------- */

  /** `isEntityOn(e)`: `e && e.state === 'on'`; an id that does not resolve
      gives `undefined`, which is not on. */
  predicate IsEntityOn(e: Option<Entity>)
    ensures e.None? ==> !IsEntityOn(e)
    ensures e.Some? ==> (IsEntityOn(e) <==> e.value.state == "on")
  {
    e.Some? && e.value.state == "on"
  }

  /** `areEntitiesOn()`: `this.entities.every(isEntityOn)`, where
      `this.entities` maps every configured id, unresolved ones included. */
  function AreEntitiesOn(ids: seq<string>, st: States): (r: bool)
    ensures r <==> forall i :: 0 <= i < |ids| ==> IsEntityOn(EntityById(st, ids[i]))
  {
    if ids == [] then true
    else
      assert forall i :: 1 <= i < |ids| ==> ids[i] == ids[1..][i - 1];
      IsEntityOn(EntityById(st, ids[0])) && AreEntitiesOn(ids[1..], st)
  }

  /** `getEntitiesOn()`: `this.entities.filter(isEntityOn)`. */
  function EntitiesOn(ids: seq<string>, st: States): (r: seq<Entity>)
    ensures |r| <= |ids|
    ensures forall e :: e in r ==> e.state == "on"
  {
    if ids == [] then []
    else
      var rest := EntitiesOn(ids[1..], st);
      if IsEntityOn(EntityById(st, ids[0])) then [st.byId[ids[0]]] + rest else rest
  }

  function OnlyOn(es: seq<Entity>): seq<Entity>
  {
    if es == [] then [] else (if es[0].state == "on" then [es[0]] else []) + OnlyOn(es[1..])
  }

  /** The entities a slider or effect change goes to are the resolved
      entities that are on, in configured order. */
  lemma {:induction false} EntitiesOnAreResolvedOn(ids: seq<string>, st: States)
    ensures EntitiesOn(ids, st) == OnlyOn(ResolveEntities(ids, st))
  {
    if ids != [] {
      EntitiesOnAreResolvedOn(ids[1..], st);
      var rest := ResolveEntities(ids[1..], st);
      if ids[0] in st.byId {
        var e := st.byId[ids[0]];
        assert ResolveEntities(ids, st) == [e] + rest;
        assert ([e] + rest)[1..] == rest;
        assert OnlyOn([e] + rest) == (if e.state == "on" then [e] else []) + OnlyOn(rest);
      } else {
        assert ResolveEntities(ids, st) == rest;
      }
    }
  }

  /** When every configured id is on, every configured id resolves and every
      resolved entity is on, so the slider commands reach all of them. */
  lemma {:induction false} AllOnMeansAllResolvedOn(ids: seq<string>, st: States)
    requires AreEntitiesOn(ids, st)
    ensures EntitiesOn(ids, st) == ResolveEntities(ids, st)
  {
    if ids != [] {
      assert IsEntityOn(EntityById(st, ids[0]));
      assert AreEntitiesOn(ids[1..], st);
      AllOnMeansAllResolvedOn(ids[1..], st);
    }
  }

  /* ---------------- aggregation ---------------- */

  /** A numeric attribute as `getMinValue` reads it; a missing (or
      non-numeric) attribute reads as `undefined`. */
  function NumAttr(e: Entity, attr: string): Option<int>
  {
    match Get(e.attributes, attr)
    case Num(n) => Some(n)
    case _ => None
  }

  function Readings(es: seq<Entity>, attr: string): (r: seq<Option<int>>)
    ensures |r| == |es|
    ensures forall i :: 0 <= i < |es| ==> r[i] == NumAttr(es[i], attr)
  {
    seq(|es|, i requires 0 <= i < |es| => NumAttr(es[i], attr))
  }

  /** One step of the reduction in `getMinValue`:
      `n === -1 || v < n ? v : n`, where any comparison with `undefined` is false. */
  function MinStep(n: Option<int>, v: Option<int>): (r: Option<int>)
    ensures r == n || r == v
    ensures n == Some(-1) ==> r == v
    ensures n.None? ==> r.None?
    ensures n.Some? && n != Some(-1) && v.Some? ==>
      r.Some? && r.value <= n.value && r.value <= v.value
    ensures n.Some? && n != Some(-1) && v.None? ==> r == n
  {
    if n == Some(-1) || (n.Some? && v.Some? && v.value < n.value) then v else n
  }

  /** `getMinValue`: the reduction above over the readings, from the
      sentinel -1 (`None` is `undefined`). */
  function MinValue(vs: seq<Option<int>>): (r: Option<int>)
    ensures vs == [] ==> r == Some(-1)
  {
    if vs == [] then Some(-1) else MinStep(MinValue(vs[..|vs| - 1]), vs[|vs| - 1])
  }

  /** When every reading is a number other than the sentinel, the reduction
      of a non-empty list yields one of the readings that is no larger than
      any other: their minimum. */
  lemma {:induction false} MinValueIsMinimum(vs: seq<Option<int>>)
    requires vs != []
    requires forall i :: 0 <= i < |vs| ==> vs[i].Some? && vs[i].value != -1
    ensures MinValue(vs).Some? && MinValue(vs) in vs
    ensures forall i :: 0 <= i < |vs| ==> MinValue(vs).value <= vs[i].value
  {
    var p := vs[..|vs| - 1];
    if p == [] {
      assert MinValue(p) == Some(-1);
    } else {
      MinValueIsMinimum(p);
      assert MinValue(p) != Some(-1);
      forall i | 0 <= i < |vs| ensures MinValue(vs).value <= vs[i].value {
        if i < |p| {
          assert vs[i] == p[i];
        }
      }
      assert MinValue(p) in vs;
    }
  }

  /** A first entity without the attribute makes the reduction `undefined`,
      and it stays `undefined` whatever the other entities hold. */
  lemma {:induction false} MinValueUndefinedFirst(vs: seq<Option<int>>)
    requires vs != [] && vs[0] == None
    ensures MinValue(vs) == None
  {
    var p := vs[..|vs| - 1];
    if p == [] {
      assert MinValue(p) == Some(-1);
    } else {
      assert p[0] == vs[0];
      MinValueUndefinedFirst(p);
    }
  }

  /** `set.add(x)` on an insertion-ordered `Set`. */
  function AddToSet(acc: seq<string>, x: string): seq<string>
  {
    if x in acc then acc else acc + [x]
  }

  /** `items.forEach(i => set.add(i))`. */
  function AddAll(acc: seq<string>, items: seq<string>): seq<string>
  {
    if items == [] then acc else AddToSet(AddAll(acc, items[..|items| - 1]), items[|items| - 1])
  }

  /** The reduction in `getAttributeList`, one entity's list after another. */
  function UnionOf(lists: seq<seq<string>>): seq<string>
  {
    if lists == [] then [] else AddAll(UnionOf(lists[..|lists| - 1]), lists[|lists| - 1])
  }

  function Flatten(lists: seq<seq<string>>): seq<string>
  {
    if lists == [] then [] else Flatten(lists[..|lists| - 1]) + lists[|lists| - 1]
  }

  /** Every entity's list attribute, or `None` when some entity's attribute
      is not an array (`forEach` of `undefined` throws). */
  function AttributeLists(es: seq<Entity>, attr: string): (r: Option<seq<seq<string>>>)
    ensures r.Some? ==> |r.value| == |es|
    ensures r.Some? ==> forall i :: 0 <= i < |es| ==> Get(es[i].attributes, attr) == StrList(r.value[i])
    ensures r.None? ==> exists i :: 0 <= i < |es| && !Get(es[i].attributes, attr).StrList?
  {
    if es == [] then Some([])
    else
      match Get(es[0].attributes, attr)
      case StrList(items) =>
        var rest := AttributeLists(es[1..], attr);
        if rest.None? then None
        else
          assert forall i :: 1 <= i < |es| ==> es[i] == es[1..][i - 1];
          Some([items] + rest.value)
      case _ => None
  }

  /** `getAttributeList`: the union of the entities' list attributes, or
      `None` when it throws. */
  function AttributeList(es: seq<Entity>, attr: string): (r: Option<seq<string>>)
    ensures r.None? <==> exists i :: 0 <= i < |es| && !Get(es[i].attributes, attr).StrList?
    ensures r.Some? ==> NoDuplicates(r.value)
    ensures r.Some? ==> forall x :: x in r.value <==> x in Flatten(AttributeLists(es, attr).value)
  {
    match AttributeLists(es, attr)
    case None => None
    case Some(lists) =>
      UnionOfIsAddAll(lists);
      AddAllIsFirstOccurrences(Flatten(lists));
      Some(UnionOf(lists))
  }

  predicate NoDuplicates(s: seq<string>) {
    forall i, j :: 0 <= i < j < |s| ==> s[i] != s[j]
  }

  /** Adding items one by one equals adding their concatenation. */
  lemma {:induction false} AddAllAppend(acc: seq<string>, a: seq<string>, b: seq<string>)
    ensures AddAll(acc, a + b) == AddAll(AddAll(acc, a), b)
  {
    if b != [] {
      var ab := a + b;
      assert ab[..|ab| - 1] == a + b[..|b| - 1];
      assert ab[|ab| - 1] == b[|b| - 1];
      AddAllAppend(acc, a, b[..|b| - 1]);
    } else {
      assert a + b == a;
    }
  }

  /** The per-entity reduction is one pass over the concatenated lists. */
  lemma {:induction false} UnionOfIsAddAll(lists: seq<seq<string>>)
    ensures UnionOf(lists) == AddAll([], Flatten(lists))
  {
    if lists != [] {
      var p := lists[..|lists| - 1];
      UnionOfIsAddAll(p);
      AddAllAppend([], Flatten(p), lists[|lists| - 1]);
    }
  }

  lemma IndexOfAppend(p: seq<string>, x: string, y: string)
    requires y in p
    ensures IndexOf(p + [x], y) == IndexOf(p, y)
  {
    var i := IndexOf(p, y);
    var j := IndexOf(p + [x], y);
    assert (p + [x])[i] == y;
    assert (p + [x])[..j] == p[..j] || j == |p|;
  }

  /** A set built from the empty set holds each item once, holds exactly the
      items, and keeps them in order of first occurrence. */
  lemma {:induction false} AddAllIsFirstOccurrences(items: seq<string>)
    ensures NoDuplicates(AddAll([], items))
    ensures forall x :: x in AddAll([], items) <==> x in items
    ensures forall i, j :: 0 <= i < j < |AddAll([], items)| ==>
      IndexOf(items, AddAll([], items)[i]) < IndexOf(items, AddAll([], items)[j])
  {
    if items != [] {
      var p := items[..|items| - 1];
      var x := items[|items| - 1];
      assert items == p + [x];
      AddAllIsFirstOccurrences(p);
      var u := AddAll([], p);
      forall y | y in p ensures IndexOf(items, y) == IndexOf(p, y) {
        IndexOfAppend(p, x, y);
      }
      if x !in u {
        assert x !in p;
        assert IndexOf(items, x) == |p|;
        forall i | 0 <= i < |u| ensures IndexOf(items, u[i]) < |p| {
          assert u[i] in p;
        }
      }
    }
  }

  /** `getAttributeList`, when it does not throw, returns every element of
      every entity's list, each once, in order of first occurrence across
      the entities' lists taken in entity order. */
  lemma AttributeListIsOrderedUnion(es: seq<Entity>, attr: string)
    requires AttributeList(es, attr).Some?
    ensures var r := AttributeList(es, attr).value;
      var lists := AttributeLists(es, attr).value;
      && NoDuplicates(r)
      && (forall x :: x in r <==> x in Flatten(lists))
      && forall i, j :: 0 <= i < j < |r| ==> IndexOf(Flatten(lists), r[i]) < IndexOf(Flatten(lists), r[j])
  {
    UnionOfIsAddAll(AttributeLists(es, attr).value);
    AddAllIsFirstOccurrences(Flatten(AttributeLists(es, attr).value));
  }

  /** An element is in the flattened lists exactly when some entity's list holds it. */
  lemma {:induction false} InFlatten(lists: seq<seq<string>>, x: string)
    ensures x in Flatten(lists) <==> exists i :: 0 <= i < |lists| && x in lists[i]
  {
    if lists != [] {
      var p := lists[..|lists| - 1];
      InFlatten(p, x);
      if x in Flatten(p) {
        var i :| 0 <= i < |p| && x in p[i];
        assert lists[i] == p[i];
      }
      if exists i :: 0 <= i < |lists| && x in lists[i] {
        var i :| 0 <= i < |lists| && x in lists[i];
        if i < |p| {
          assert p[i] == lists[i];
        }
      }
    }
  }

  /* ---------------- percent label ---------------- */

  /** The number `showPercent` prints: `parseInt((v - lo) * 100 / (hi - lo))`,
      replaced by 0 when it is `NaN`, that is when an operand is `undefined`
      or the range is empty. */
  function Percent(v: Option<int>, lo: Option<int>, hi: Option<int>): (r: int)
    ensures v.None? || lo.None? || hi.None? ==> r == 0
    ensures lo.Some? && hi.Some? && lo == hi ==> r == 0
  {
    if v.None? || lo.None? || hi.None? || hi.value == lo.value then 0
    else TruncDiv((v.value - lo.value) * 100, hi.value - lo.value)
  }

  /** `showPercent`: nothing unless `show_slider_percent` is set. */
  function ShowPercent(config: Object, v: Option<int>, lo: Option<int>, hi: Option<int>): (r: Option<int>)
    ensures r.None? <==> !Truthy(Get(config, "show_slider_percent"))
    ensures r.Some? ==> r.value == Percent(v, lo, hi)
  {
    if !Truthy(Get(config, "show_slider_percent")) then None else Some(Percent(v, lo, hi))
  }

  lemma QuotientAtMost(x: nat, y: nat, k: nat)
    requires y > 0 && x <= k * y
    ensures x / y <= k
  {
    var q := x / y;
    assert q * y <= x;
  }

  /** The percent is the quotient truncated toward zero: its magnitude is
      the largest whole number of range widths in `(v - lo) * 100`, and it is
      negative only when exactly one of the two operands is. */
  lemma PercentTruncates(v: int, lo: int, hi: int)
    requires lo != hi
    ensures var r := Percent(Some(v), Some(lo), Some(hi));
      var n := (v - lo) * 100;
      var d := hi - lo;
      && Abs(r) * Abs(d) <= Abs(n) < (Abs(r) + 1) * Abs(d)
      && (r > 0 ==> (n > 0 <==> d > 0))
      && (r < 0 ==> (n > 0 <==> d < 0))
  {
    var n := (v - lo) * 100;
    var d := hi - lo;
    QuotientBounds(Abs(n), Abs(d));
  }

  lemma QuotientBounds(x: nat, y: nat)
    requires y > 0
    ensures (x / y) * y <= x < (x / y + 1) * y
  {
    var q := x / y;
    assert x == q * y + x % y;
    assert (q + 1) * y == q * y + y;
  }

  /** A value inside a non-empty range reads as a percentage between 0 and 100. */
  lemma PercentWithinRange(v: int, lo: int, hi: int)
    requires lo < hi && lo <= v <= hi
    ensures 0 <= Percent(Some(v), Some(lo), Some(hi)) <= 100
  {
    var num := (v - lo) * 100;
    var den := hi - lo;
    QuotientAtMost(num, den, 100);
    NaturalQuotient(num, den);
  }

  /** The brightness percent: half of the 0..254 range is 50, and the ends are 0 and 100. */
  lemma BrightnessPercentExamples()
    ensures Percent(Some(127), Some(0), Some(254)) == 50
    ensures Percent(Some(0), Some(0), Some(254)) == 0
    ensures Percent(Some(254), Some(0), Some(254)) == 100
  {
  }

  /* ---------------- the sliders ---------------- */

  datatype SliderView = SliderView(value: Option<int>, percent: Option<int>)

  datatype ColorTempView = ColorTempView(value: Option<int>, min: Option<int>, max: Option<int>, percent: Option<int>)

  /** `min - 1` on a possibly `undefined` reading (`undefined - 1` is `NaN`). */
  function Decrement(n: Option<int>): Option<int>
  {
    match n
    case None => None
    case Some(k) => Some(k - 1)
  }

  /** `createBrightnessSlider`: the least brightness, with its percent of 0..254. */
  function BrightnessSlider(config: Object, es: seq<Entity>): (s: SliderView)
    ensures es == [] ==> s.value == Some(-1)
    ensures s.percent.None? <==> !Truthy(Get(config, "show_slider_percent"))
    ensures s.percent.Some? && s.value.Some? && 0 <= s.value.value <= 254 ==> 0 <= s.percent.value <= 100
  {
    var value := MinValue(Readings(es, "brightness"));
    if value.Some? && 0 <= value.value <= 254 then
      PercentWithinRange(value.value, 0, 254);
      SliderView(value, ShowPercent(config, value, Some(0), Some(254)))
    else SliderView(value, ShowPercent(config, value, Some(0), Some(254)))
  }

  /** `createColorTemperature`: the least colour temperature, the least
      `min_mireds` and the least `max_mireds`, and the percent of the value
      against the range shifted down by one. */
  function ColorTemperature(config: Object, es: seq<Entity>): (c: ColorTempView)
    ensures es == [] ==> c.value == Some(-1) && c.min == Some(-1) && c.max == Some(-1)
    ensures c.percent.None? <==> !Truthy(Get(config, "show_slider_percent"))
    ensures c.percent.Some? && (c.value.None? || c.min.None? || c.max.None? || c.min == c.max) ==> c.percent.value == 0
    ensures (&& c.percent.Some? && c.value.Some? && c.min.Some? && c.max.Some?
             && c.min.value < c.max.value && c.min.value - 1 <= c.value.value <= c.max.value - 1)
      ==> 0 <= c.percent.value <= 100
  {
    var value := MinValue(Readings(es, "color_temp"));
    var min := MinValue(Readings(es, "min_mireds"));
    var max := MinValue(Readings(es, "max_mireds"));
    if value.Some? && min.Some? && max.Some? && min.value < max.value && min.value - 1 <= value.value <= max.value - 1 then
      PercentWithinRange(value.value, min.value - 1, max.value - 1);
      ColorTempView(value, min, max, ShowPercent(config, value, Decrement(min), Decrement(max)))
    else ColorTempView(value, min, max, ShowPercent(config, value, Decrement(min), Decrement(max)))
  }

  /** The slider values are the per-attribute minima over the entities, and
      the colour-temperature percent is taken against `min - 1` and `max - 1`. */
  lemma SlidersShowMinima(config: Object, es: seq<Entity>, attr: string)
    requires es != []
    requires forall e :: e in es ==> NumAttr(e, attr).Some? && NumAttr(e, attr).value != -1
    requires attr in {"brightness", "color_temp", "min_mireds", "max_mireds"}
    ensures var c := ColorTemperature(config, es);
      var b := BrightnessSlider(config, es);
      var m := MinValue(Readings(es, attr));
      && m.Some?
      && (exists e :: e in es && NumAttr(e, attr) == m)
      && (forall e :: e in es ==> m.value <= NumAttr(e, attr).value)
      && (attr == "brightness" ==> b.value == m)
      && (attr == "color_temp" ==> c.value == m)
      && (attr == "min_mireds" ==> c.min == m)
      && (attr == "max_mireds" ==> c.max == m)
      && (b.percent.Some? <==> Truthy(Get(config, "show_slider_percent")))
      && (b.percent.Some? ==> b.percent.value == Percent(b.value, Some(0), Some(254)))
      && (c.percent.Some? ==> c.percent.value == Percent(c.value, Decrement(c.min), Decrement(c.max)))
  {
    var vs := Readings(es, attr);
    MinValueIsMinimum(vs);
    var m := MinValue(vs);
    var k :| 0 <= k < |vs| && vs[k] == m;
    assert NumAttr(es[k], attr) == m;
    forall e | e in es ensures m.value <= NumAttr(e, attr).value {
      var i :| 0 <= i < |es| && es[i] == e;
      assert vs[i] == NumAttr(e, attr);
    }
  }

  /* ---------------- the effect list ---------------- */

  datatype EffectView = EffectView(effects: seq<string>, selected: int)

  /** `(inputSelect.attributes && inputSelect.attributes.options) || []`,
      then `.map`: a list is used, a falsy value gives the empty list, any
      other value has no `map` and throws. */
  function OptionsOf(e: Entity): (r: Result<seq<string>>)
    ensures Get(e.attributes, "options").StrList? ==> r == Ok(Get(e.attributes, "options").items)
    ensures !Truthy(Get(e.attributes, "options")) ==> r == Ok([])
    ensures r.Err? <==> Truthy(Get(e.attributes, "options")) && !Get(e.attributes, "options").StrList?
    ensures r.Err? ==> r.error == TypeError
  {
    match Get(e.attributes, "options")
    case StrList(items) => Ok(items)
    case v => if Truthy(v) then Err(TypeError) else Ok([])
  }

  /** The effect list of `createEffectList`. The union of the entities'
      `effect_list` attributes is computed first, and throws when one of
      them is not a list, whatever the override is; then an array override
      wins, then an override naming an entity of the state map gives that
      entity's `options`, and otherwise the union stands. */
  function EffectList(config: Object, st: States, es: seq<Entity>): (r: Result<seq<string>>)
    ensures AttributeList(es, "effect_list").None? ==> r == Err(TypeError)
    ensures r.Err? ==> r.error == TypeError
  {
    match AttributeList(es, "effect_list")
    case None => Err(TypeError)
    case Some(union) =>
      var over := Get(config, "effects_list");
      if over.StrList? then Ok(over.items)
      else if Truthy(over) && ToJsString(over) in st.byId then OptionsOf(st.byId[ToJsString(over)])
      else Ok(union)
  }

  /** `effectList.indexOf(entities[0].attributes.effect)`, -1 without entities. */
  function SelectedIndex(effects: seq<string>, es: seq<Entity>): (r: int)
    ensures -1 <= r < |effects|
    ensures r >= 0 ==> es != [] && Get(es[0].attributes, "effect") == Str(effects[r])
    ensures r >= 0 ==> forall j :: 0 <= j < r ==> Get(es[0].attributes, "effect") != Str(effects[j])
    ensures r == -1 <==> es == [] || forall x :: x in effects ==> Get(es[0].attributes, "effect") != Str(x)
  {
    if es == [] then -1
    else
      match Get(es[0].attributes, "effect")
      case Str(current) => IndexOf(effects, current)
      case _ => -1
  }

  /** The precedence of the effect-list sources, when the union does not throw. */
  lemma EffectListPrecedence(config: Object, st: States, es: seq<Entity>)
    requires AttributeList(es, "effect_list").Some?
    ensures Get(config, "effects_list").StrList? ==>
      EffectList(config, st, es) == Ok(Get(config, "effects_list").items)
    ensures var over := Get(config, "effects_list");
      over.Str? && over.s != "" && over.s in st.byId ==>
        EffectList(config, st, es) == OptionsOf(st.byId[over.s])
    ensures var over := Get(config, "effects_list");
      !over.StrList? && (!Truthy(over) || ToJsString(over) !in st.byId) ==>
        EffectList(config, st, es) == Ok(AttributeList(es, "effect_list").value)
  {
  }

  /** Even an array override does not save a render whose entities lack an
      `effect_list` array. */
  lemma EffectListThrowsWithoutLists(config: Object, st: States, es: seq<Entity>, i: int)
    requires 0 <= i < |es| && !Get(es[i].attributes, "effect_list").StrList?
    ensures EffectList(config, st, es) == Err(TypeError)
  {
  }

  /** `createEffectList`: the list and the selected entry, or what it throws. */
  function EffectDropdown(config: Object, st: States, es: seq<Entity>): (r: Result<EffectView>)
    ensures r.Err? <==> EffectList(config, st, es).Err?
    ensures r.Err? ==> r.error == TypeError
    ensures r.Ok? ==> r.value.effects == EffectList(config, st, es).value
    ensures r.Ok? ==> -1 <= r.value.selected < |r.value.effects|
    ensures r.Ok? ==> r.value.selected == SelectedIndex(r.value.effects, es)
  {
    match EffectList(config, st, es)
    case Err(e) => Err(e)
    case Ok(effects) => Ok(EffectView(effects, SelectedIndex(effects, es)))
  }

  /* ---------------- the whole render pass ---------------- */

  datatype HeaderView = HeaderView(title: Value, toggleChecked: bool)

  datatype CardView = CardView(
    entities: seq<Entity>,
    header: Option<HeaderView>,
    brightness: Option<SliderView>,
    colorTemp: Option<ColorTempView>,
    effects: Option<EffectView>)

  /** The values `render` feeds into its templates: each control is present
      only when its flag is set, the header unless `hide_header` is set. */
  function RenderView(config: Object, st: States): (r: Result<CardView>)
    ensures Resolution(config, st).Err? ==> r == Err(Resolution(config, st).error)
    ensures r.Ok? ==> r.value.entities == Resolution(config, st).value
    ensures r.Ok? ==> (r.value.header.Some? <==> !Truthy(Get(config, "hide_header")))
    ensures r.Ok? && r.value.header.Some? ==>
      r.value.header.value.toggleChecked == AreEntitiesOn(ConfiguredIds(config).value, st)
    ensures r.Ok? ==> (r.value.brightness.Some? <==> Truthy(Get(config, "brightness")))
    ensures r.Ok? ==> (r.value.colorTemp.Some? <==> Truthy(Get(config, "color_temp")))
    ensures r.Ok? ==> (r.value.effects.Some? <==> Truthy(Get(config, "effects_list")))
    ensures r.Ok? && r.value.header.Some? ==> r.value.header.value.title == Get(config, "header")
    ensures r.Ok? && r.value.brightness.Some? ==>
      r.value.brightness.value == BrightnessSlider(config, r.value.entities)
    ensures r.Ok? && r.value.colorTemp.Some? ==>
      r.value.colorTemp.value == ColorTemperature(config, r.value.entities)
    ensures r.Ok? && r.value.effects.Some? ==>
      EffectDropdown(config, st, r.value.entities) == Ok(r.value.effects.value)
    ensures Resolution(config, st).Ok? && !Truthy(Get(config, "effects_list")) ==> r.Ok?
    ensures Resolution(config, st).Ok? && EffectDropdown(config, st, Resolution(config, st).value).Ok? ==> r.Ok?
  {
    match Resolution(config, st)
    case Err(e) => Err(e)
    case Ok(es) =>
      var ids := ConfiguredIds(config).value;
      var header := if Truthy(Get(config, "hide_header")) then None
                    else Some(HeaderView(Get(config, "header"), AreEntitiesOn(ids, st)));
      var brightness := if Truthy(Get(config, "brightness")) then Some(BrightnessSlider(config, es)) else None;
      var colorTemp := if Truthy(Get(config, "color_temp")) then Some(ColorTemperature(config, es)) else None;
      if !Truthy(Get(config, "effects_list")) then Ok(CardView(es, header, brightness, colorTemp, None))
      else
        match EffectDropdown(config, st, es)
        case Err(e) => Err(e)
        case Ok(effects) => Ok(CardView(es, header, brightness, colorTemp, Some(effects)))
  }

  /** When every configured id resolves, `render` never throws the
      configuration error: whatever it throws comes from a value of the
      wrong kind in the effect list. */
  lemma ResolvedRenderThrowsOnlyTypeErrors(config: Object, st: States)
    requires ConfiguredIds(config).Some? && ConfiguredIds(config).value != []
    requires forall id :: id in ConfiguredIds(config).value ==> id in st.byId
    ensures RenderView(config, st).Err? ==> RenderView(config, st).error == TypeError
  {
    var ids := ConfiguredIds(config).value;
    assert ids[0] in ids;
    assert st.byId[ids[0]] in ResolveEntities(ids, st);
  }

  /** A configuration whose ids all resolve never makes `render` throw, as
      long as the effect list, when shown, finds an `effect_list` array on
      every entity and a referenced entity's `options` is a list or falsy. */
  lemma RenderSucceedsWhenAllResolve(config: Object, st: States)
    requires ConfiguredIds(config).Some? && ConfiguredIds(config).value != []
    requires forall id :: id in ConfiguredIds(config).value ==> id in st.byId
    requires Truthy(Get(config, "effects_list")) ==>
      forall id :: id in ConfiguredIds(config).value ==> Get(st.byId[id].attributes, "effect_list").StrList?
    requires var over := Get(config, "effects_list");
      !over.StrList? && Truthy(over) && ToJsString(over) in st.byId ==> OptionsOf(st.byId[ToJsString(over)]).Ok?
    ensures RenderView(config, st).Ok?
  {
    var ids := ConfiguredIds(config).value;
    assert ids[0] in ids;
    assert st.byId[ids[0]] in ResolveEntities(ids, st);
    var es := ResolveEntities(ids, st);
    if Truthy(Get(config, "effects_list")) {
      forall i | 0 <= i < |es| ensures Get(es[i].attributes, "effect_list").StrList? {
        assert es[i] in es;
      }
    }
  }

  /* ---------------- service calls ---------------- */

  /** One `hass.callService(domain, service, data)`. */
  datatype ServiceCall = ServiceCall(domain: string, service: string, data: Object)

  /** The domain of an entity id: `entity_id.split('.')[0]`. */
  function Domain(entityId: string): (d: string)
    ensures d <= entityId && '.' !in d
    ensures d == entityId || entityId[|d|] == '.'
  {
    Before(entityId, '.')
  }

  /** `state || 'turn_on'`. */
  function ServiceName(state: Option<string>): (s: string)
    ensures s != ""
    ensures state.Some? && state.value != "" ==> s == state.value
    ensures state.None? || state.value == "" ==> s == "turn_on"
  {
    if state.Some? && state.value != "" then state.value else "turn_on"
  }

  /** The call for one entity: `{ entity_id: e.entity_id, ...payload }` sent
      to the entity's domain. */
  function CallFor(payload: Object, e: Entity, service: string): (c: ServiceCall)
    ensures c.domain == Domain(e.entity_id) && c.service == service
    ensures "entity_id" !in payload ==> Get(c.data, "entity_id") == Str(e.entity_id)
    ensures forall k :: k in payload ==> Get(c.data, k) == payload[k]
    ensures c.data.Keys == payload.Keys + {"entity_id"}
  {
    ServiceCall(Domain(e.entity_id), service, Spread(map["entity_id" := Str(e.entity_id)], payload))
  }

  /** The calls `entities.forEach(...)` makes, in entity order: one call
      per entity. */
  function CallsFor(payload: Object, es: seq<Entity>, service: string): (r: seq<ServiceCall>)
    ensures |r| == |es|
  {
    if es == [] then [] else CallsFor(payload, es[..|es| - 1], service) + [CallFor(payload, es[|es| - 1], service)]
  }

  /** The i-th call goes to the i-th entity. */
  lemma {:induction false} CallsForEachEntity(payload: Object, es: seq<Entity>, service: string)
    ensures forall i :: 0 <= i < |es| ==> CallsFor(payload, es, service)[i] == CallFor(payload, es[i], service)
  {
    if es != [] {
      CallsForEachEntity(payload, es[..|es| - 1], service);
    }
  }

  /** The toggle's command: `turn_off` when every configured entity is on,
      `turn_on` otherwise. */
  function ToggleService(ids: seq<string>, st: States): (s: string)
    ensures s == "turn_off" <==> forall i :: 0 <= i < |ids| ==> IsEntityOn(EntityById(st, ids[i]))
    ensures s == "turn_on" <==> exists i :: 0 <= i < |ids| && !IsEntityOn(EntityById(st, ids[i]))
  {
    if AreEntitiesOn(ids, st) then "turn_off" else "turn_on"
  }
}

=== FILE: editor.dfy ===
/**
 * The card's configuration editor: the values its form shows (a derived
 * header, a picklist of light entities, the icon fields and flags) and the
 * change handlers, each of which replaces the configuration by a copy that
 * differs in one field and emits that copy in a `config-changed` event.
 */
module Editor {
  import opened Js
  import opened Hass
  import opened Utils

  /* ---------------- header derivation ---------------- */

  /** `s.split('.')[1]`: the segment after the first dot, up to the next
      dot; `None` (`undefined`) when `s` has no dot. */
  function SecondSegment(s: string): (r: Option<string>)
    ensures r.None? <==> '.' !in s
    ensures r.Some? ==> '.' !in r.value && Before(s, '.') + "." + r.value <= s
  {
    var first := Before(s, '.');
    if first == s then None else Some(Before(s[|first| + 1..], '.'))
  }

  /** The second dot-separated segment of `first + "." + name + rest` is
      `name`, whenever neither `first` nor `name` holds a dot and `rest` is
      empty or starts a further segment. */
  lemma SecondSegmentOf(first: string, name: string, rest: string)
    requires '.' !in first && '.' !in name
    requires rest == [] || rest[0] == '.'
    ensures SecondSegment(first + "." + name + rest) == Some(name)
  {
    var s := first + "." + name + rest;
    BeforeOf(first, s);
    assert s[|first| + 1..] == name + rest;
    BeforeOf(name, name + rest);
  }

  /** The text before the first dot of `p + q` is `p` when `p` holds no dot
      and `q` is empty or starts with one. */
  lemma {:induction false} BeforeOf(p: string, s: string)
    requires p <= s && '.' !in p
    requires |s| == |p| || s[|p|] == '.'
    ensures Before(s, '.') == p
  {
    if p != [] {
      assert s[0] == p[0];
      BeforeOf(p[1..], s[1..]);
    }
  }

  /** A text without a dot has no second segment. */
  lemma NoDotNoSecondSegment(s: string)
    requires '.' !in s
    ensures SecondSegment(s) == None
  {
    BeforeOf(s, s);
  }

  /** `c.toUpperCase()` on the letters a to z. */
  function ToUpper(c: char): char
  {
    if 'a' <= c <= 'z' then (c as int - 32) as char else c
  }

  /** `name.charAt(0).toUpperCase() + name.slice(1)`. */
  function Capitalize(name: string): (r: string)
    requires name != ""
    ensures |r| == |name| && r[0] == ToUpper(name[0]) && r[1..] == name[1..]
  {
    [ToUpper(name[0])] + name[1..]
  }

  /** The header the form shows: the configured `header` when it is truthy
      or `entity` is falsy; otherwise the capitalised second segment of the
      `entity` id, or the configured value again when that segment is empty
      or missing. An `entity` that is not a string has no `split` and throws. */
  function DerivedHeader(config: Object): (r: Result<Value>)
    ensures Truthy(Get(config, "header")) || !Truthy(Get(config, "entity")) ==> r == Ok(Get(config, "header"))
    ensures r.Err? <==> !Truthy(Get(config, "header")) && Truthy(Get(config, "entity")) && !Get(config, "entity").Str?
    ensures r.Err? ==> r.error == TypeError
    ensures r.Ok? && r.value != Get(config, "header") ==>
      && Get(config, "entity").Str?
      && SecondSegment(Get(config, "entity").s).Some?
      && SecondSegment(Get(config, "entity").s).value != ""
      && r.value == Str(Capitalize(SecondSegment(Get(config, "entity").s).value))
  {
    var header := Get(config, "header");
    var entity := Get(config, "entity");
    if Truthy(header) || !Truthy(entity) then Ok(header)
    else
      match entity
      case Str(id) =>
        var name := match SecondSegment(id) case Some(n) => n case None => "";
        if name == "" then Ok(header) else Ok(Str(Capitalize(name)))
      case _ => Err(TypeError)
  }

  /** With an empty header and an entity id `domain.name...`, the header is
      `name` with its first letter upper-cased; with an id whose second
      segment is empty or missing, the header stays as configured. */
  lemma DerivedHeaderFromEntity(config: Object, first: string, name: string, rest: string)
    requires !Truthy(Get(config, "header"))
    requires '.' !in first && '.' !in name && (rest == [] || rest[0] == '.')
    requires Get(config, "entity") == Str(first + "." + name + rest)
    ensures name != "" ==> DerivedHeader(config) == Ok(Str(Capitalize(name)))
    ensures name == "" ==> DerivedHeader(config) == Ok(Get(config, "header"))
  {
    SecondSegmentOf(first, name, rest);
  }

  /** With an empty header and an entity id without a dot, the missing
      second segment reads as `''` and the header stays as configured. */
  lemma DerivedHeaderWithoutDot(config: Object, id: string)
    requires !Truthy(Get(config, "header"))
    requires Get(config, "entity") == Str(id) && '.' !in id
    ensures DerivedHeader(config) == Ok(Get(config, "header"))
  {
    NoDotNoSecondSegment(id);
  }

  /* ---------------- entity picklist ---------------- */

  /** `/^light\./.test(id)`. */
  predicate IsLightId(id: string) {
    |id| >= 6 && id[..6] == "light."
  }

  /** `Object.values(states).filter(e => /^light\./.test(e.entity_id))`. */
  function LightEntities(values: seq<Entity>): (r: seq<Entity>)
    ensures |r| <= |values|
    ensures forall e :: e in r <==> e in values && IsLightId(e.entity_id)
  {
    if values == [] then []
    else
      assert forall e :: e in values ==> e == values[0] || e in values[1..];
      (if IsLightId(values[0].entity_id) then [values[0]] else []) + LightEntities(values[1..])
  }

  /** `s.indexOf(sub) > -1` on a string: `sub` occurs in `s`. */
  predicate Occurs(sub: string, s: string) {
    exists i :: 0 <= i <= |s| && sub <= s[i..]
  }

  /** `entityIds.indexOf(id) > -1`: membership for an array, and substring
      search for a string. */
  predicate Listed(entityIds: Value, id: string)
    ensures entityIds.StrList? ==> (Listed(entityIds, id) <==> id in entityIds.items)
    ensures entityIds.Str? && id <= entityIds.s ==> Listed(entityIds, id)
    ensures !entityIds.StrList? && !entityIds.Str? ==> !Listed(entityIds, id)
  {
    match entityIds
    case StrList(ids) => IndexOf(ids, id) > -1
    case Str(s) => assert s[0..] == s; Occurs(id, s)
    case _ => false
  }

  /** One checkbox of the picklist. */
  datatype EntityOption = EntityOption(name: Value, checked: bool, entityId: string)

  /** The picklist: a checkbox per light entity, labelled with its display
      name, checked when its id is listed in `entityIds`. `indexOf` on a
      value that is neither array nor string throws, but only once there is
      a light entity to ask about. */
  function EntityOptions(lights: seq<Entity>, entityIds: Value): (r: Result<seq<EntityOption>>)
    ensures r.Err? <==> lights != [] && !entityIds.StrList? && !entityIds.Str?
    ensures r.Ok? ==> |r.value| == |lights|
  {
    if lights != [] && !entityIds.StrList? && !entityIds.Str? then Err(TypeError)
    else Ok(seq(|lights|, i requires 0 <= i < |lights| =>
      EntityOption(EntityName(lights[i]), Listed(entityIds, lights[i].entity_id), lights[i].entity_id)))
  }

  /** The picklist holds exactly the light entities of the state map, in
      enumeration order, each labelled by its display name and checked
      exactly when its id is in the `entityIds` array. */
  lemma PicklistIsLightEntities(st: States, ids: seq<string>)
    ensures var lights := LightEntities(Values(st));
      var r := EntityOptions(lights, StrList(ids));
      && r.Ok? && |r.value| == |lights|
      && (forall e :: e in lights <==> e in Values(st) && IsLightId(e.entity_id))
      && forall i :: 0 <= i < |lights| ==>
        && r.value[i].entityId == lights[i].entity_id
        && r.value[i].name == EntityName(lights[i])
        && (r.value[i].checked <==> lights[i].entity_id in ids)
    ensures ValidStates(st) ==>
      forall e :: e in LightEntities(Values(st)) <==> e in st.byId.Values && IsLightId(e.entity_id)
  {
    if ValidStates(st) {
      ValuesOfValidStates(st);
    }
  }

  /* ---------------- the form ---------------- */

  /** The boolean fields the form shows as checkboxes, in form order. */
  const FlagKeys: seq<string> :=
    ["brightness", "color_temp", "effects_list", "hide_header", "full_width_sliders", "show_slider_percent", "child_card"]

  datatype EditorView =
    | Blank
    | Form(header: Value, entityOptions: seq<EntityOption>, brightnessIcon: Value, temperatureIcon: Value, flags: seq<Value>)

  /** The editor's `render()`: nothing before the host supplied `hass`; a
      `TypeError` when there is no configuration yet or when a field has
      the wrong kind; otherwise the form's values. */
  function EditorRender(config: Option<Object>, hass: Option<States>): (r: Result<EditorView>)
    ensures hass.None? ==> r == Ok(Blank)
    ensures hass.Some? && config.None? ==> r == Err(TypeError)
    ensures r.Ok? && hass.Some? ==>
      && r.value.Form?
      && DerivedHeader(config.value) == Ok(r.value.header)
      && EntityOptions(LightEntities(Values(hass.value)), Get(config.value, "entityIds")) == Ok(r.value.entityOptions)
      && r.value.brightnessIcon == Get(config.value, "brightness_icon")
      && r.value.temperatureIcon == Get(config.value, "temperature_icon")
      && |r.value.flags| == |FlagKeys|
      && forall i :: 0 <= i < |FlagKeys| ==> r.value.flags[i] == Get(config.value, FlagKeys[i])
    ensures (&& hass.Some? && config.Some? && DerivedHeader(config.value).Ok?
             && EntityOptions(LightEntities(Values(hass.value)), Get(config.value, "entityIds")).Ok?)
      ==> r.Ok?
    ensures r.Err? ==> r.error == TypeError
  {
    if hass.None? then Ok(Blank)
    else if config.None? then Err(TypeError)
    else
      var c := config.value;
      match DerivedHeader(c)
      case Err(e) => Err(e)
      case Ok(header) =>
        match EntityOptions(LightEntities(Values(hass.value)), Get(c, "entityIds"))
        case Err(e) => Err(e)
        case Ok(options) =>
          Ok(Form(header, options, Get(c, "brightness_icon"), Get(c, "temperature_icon"),
                  seq(|FlagKeys|, i requires 0 <= i < |FlagKeys| => Get(c, FlagKeys[i]))))
  }

  /* ---------------- editing the entity list ---------------- */

  /** `[...value]`: an array copies element by element, a string spreads
      into its characters, anything else is not iterable and throws. */
  function SpreadIds(v: Value): (r: Option<seq<string>>)
    ensures r.None? <==> !v.StrList? && !v.Str?
    ensures v.StrList? ==> r == Some(v.items)
    ensures v.Str? ==> |r.value| == |v.s| && forall i :: 0 <= i < |v.s| ==> r.value[i] == [v.s[i]]
  {
    match v
    case StrList(ids) => Some(ids)
    case Str(s) => Some(seq(|s|, i requires 0 <= i < |s| => [s[i]]))
    case _ => None
  }

  /** `ids.splice(start, 1)` on a copy: a negative start counts from the end
      and is clamped at 0; a start past the end removes nothing. */
  function SpliceOne(ids: seq<string>, start: int): (r: seq<string>)
    ensures ids != [] && start < |ids| ==> |r| == |ids| - 1
    ensures start >= |ids| ==> r == ids
    ensures multiset(r) <= multiset(ids)
  {
    var k := if start < 0 then (if |ids| + start < 0 then 0 else |ids| + start)
             else (if start > |ids| then |ids| else start);
    if k < |ids| then
      assert ids == ids[..k] + [ids[k]] + ids[k + 1..];
      ids[..k] + ids[k + 1..]
    else ids
  }

  /** The list `entitiesConfigChanged` stores: `value` appended when the
      box was checked, `splice(indexOf(value), 1)` when it was unchecked. */
  function ToggledIds(ids: seq<string>, value: string, checked: bool): (r: seq<string>)
    ensures checked ==> |r| == |ids| + 1 && r[|ids|] == value && r[..|ids|] == ids
    ensures !checked ==> |r| == (if ids == [] then 0 else |ids| - 1) && multiset(r) <= multiset(ids)
  {
    if checked then ids + [value] else SpliceOne(ids, IndexOf(ids, value))
  }

  /** Checking appends at the end, duplicates included; unchecking removes
      the first occurrence; unchecking an id that is not listed removes the
      last id (`splice(-1, 1)`), and leaves an empty list empty. */
  lemma ToggledIdsCases(ids: seq<string>, value: string, checked: bool)
    ensures checked ==> ToggledIds(ids, value, checked) == ids + [value]
    ensures !checked && value in ids ==>
      var k := IndexOf(ids, value);
      && ToggledIds(ids, value, checked) == ids[..k] + ids[k + 1..]
      && value !in ids[..k]
      && multiset(ToggledIds(ids, value, checked)) == multiset(ids) - multiset{value}
    ensures !checked && value !in ids && ids != [] ==> ToggledIds(ids, value, checked) == ids[..|ids| - 1]
    ensures !checked && ids == [] ==> ToggledIds(ids, value, checked) == []
  {
    if checked {
      assert ToggledIds(ids, value, checked) == ids + [value];
    } else if value in ids {
      UncheckListed(ids, value);
    } else {
      UncheckUnlisted(ids, value);
    }
  }

  lemma UncheckListed(ids: seq<string>, value: string)
    requires value in ids
    ensures var k := IndexOf(ids, value);
      && ToggledIds(ids, value, false) == ids[..k] + ids[k + 1..]
      && multiset(ToggledIds(ids, value, false)) == multiset(ids) - multiset{value}
  {
    var k := IndexOf(ids, value);
    assert ToggledIds(ids, value, false) == SpliceOne(ids, k);
    RemoveAt(ids, k);
  }

  /** Dropping position `k` removes one copy of the element there. */
  lemma RemoveAt(ids: seq<string>, k: nat)
    requires k < |ids|
    ensures multiset(ids[..k] + ids[k + 1..]) == multiset(ids) - multiset{ids[k]}
  {
    assert ids == ids[..k] + [ids[k]] + ids[k + 1..];
  }

  lemma UncheckUnlisted(ids: seq<string>, value: string)
    requires value !in ids
    ensures ids != [] ==> ToggledIds(ids, value, false) == ids[..|ids| - 1]
    ensures ids == [] ==> ToggledIds(ids, value, false) == []
  {
    assert ToggledIds(ids, value, false) == SpliceOne(ids, -1);
  }

  /** Checking an unlisted id and then unchecking it restores the list. */
  lemma CheckThenUncheck(ids: seq<string>, value: string)
    requires value !in ids
    ensures ToggledIds(ToggledIds(ids, value, true), value, false) == ids
  {
    var added := ids + [value];
    assert IndexOf(added, value) == |ids| by {
      assert added[|ids|] == value;
      assert added[..|ids|] == ids;
    }
    assert added[..|ids|] == ids;
  }

  /* ---------------- the editor object ---------------- */

  class LightClusterCardEditor {
    /** The static default table that `setConfig` lays the input over. */
    const defaults: Object
    /** `this.config`; `None` until `setConfig`. */
    var config: Option<Object>
    /** `this.hass`, assigned by the host. */
    var hass: Option<States>
    /** `this.firstRendered`, set by `firstUpdated`. */
    var firstRendered: bool
    /** The configurations carried by the `config-changed` events fired so far. */
    var events: seq<Object>

    constructor (defaults: Object)
      ensures this.defaults == defaults
      ensures config == None && hass == None && !firstRendered && events == []
    {
      this.defaults := defaults;
      config := None;
      hass := None;
      firstRendered := false;
      events := [];
    }

    /** The guard every handler starts with:
        `this.config && this.hass && this.firstRendered`. */
    predicate Ready()
      reads this
      ensures Ready() ==> config.Some? && hass.Some? && firstRendered
      ensures !firstRendered ==> !Ready()
    {
      config.Some? && hass.Some? && firstRendered
    }

    /** The host assigns the `hass` property. */
    method SetHass(states: States)
      modifies this`hass
      ensures hass == Some(states)
    {
      hass := Some(states);
    }

    /** `setConfig(config)`: the input laid over the defaults, no check. */
    method SetConfig(input: Object)
      modifies this`config
      ensures config == Some(Spread(defaults, input))
    {
      config := Some(Spread(defaults, input));
    }

    /** `firstUpdated()`: the first render pass is done. */
    method FirstUpdated()
      modifies this`firstRendered
      ensures firstRendered
    {
      firstRendered := true;
    }

    /** `render()`. */
    function Render(): (r: Result<EditorView>)
      reads this
      ensures hass.None? ==> r == Ok(Blank)
    {
      EditorRender(config, hass)
    }

    /** `configChanged(ev)`: the test on `detail.value` holds for every
        value, so the field named `configValue` takes `detail.value` even
        when that is `undefined`, and the event's `target.value` is never
        used. All other fields keep their values and one event carries the
        new configuration. */
    method ConfigChanged(configValue: string, targetValue: Value, detailValue: Value)
      modifies this`config, this`events
      ensures !old(Ready()) ==> config == old(config) && events == old(events)
      ensures old(Ready()) ==>
        && config == Some(Spread(old(config).value, map[configValue := detailValue]))
        && events == old(events) + [config.value]
    {
      if !Ready() {
        return;
      }
      config := Some(Spread(config.value, map[configValue := detailValue]));
      events := events + [config.value];
    }

    /** `entitiesConfigChanged(ev)`: a copy of `entityIds` with `value`
        appended or spliced out becomes the new `entityIds`. When
        `entityIds` is not iterable the spread throws and nothing changes. */
    method EntitiesConfigChanged(value: string, checked: bool) returns (thrown: Option<Error>)
      modifies this`config, this`events
      ensures !old(Ready()) ==> thrown.None? && config == old(config) && events == old(events)
      ensures old(Ready()) && SpreadIds(Get(old(config).value, "entityIds")).None? ==>
        thrown == Some(TypeError) && config == old(config) && events == old(events)
      ensures old(Ready()) && SpreadIds(Get(old(config).value, "entityIds")).Some? ==>
        var ids := SpreadIds(Get(old(config).value, "entityIds")).value;
        && thrown.None?
        && config == Some(Spread(old(config).value, map["entityIds" := StrList(ToggledIds(ids, value, checked))]))
        && events == old(events) + [config.value]
    {
      thrown := None;
      if !Ready() {
        return;
      }
      var copy := SpreadIds(Get(config.value, "entityIds"));
      if copy.None? {
        return Some(TypeError);
      }
      var ids := ToggledIds(copy.value, value, checked);
      config := Some(Spread(config.value, map["entityIds" := StrList(ids)]));
      events := events + [config.value];
    }

    /** `checkboxConfigChanged(ev)`: the field named by the checkbox's value
        takes its checked state. */
    method CheckboxConfigChanged(value: string, checked: bool)
      modifies this`config, this`events
      ensures !old(Ready()) ==> config == old(config) && events == old(events)
      ensures old(Ready()) ==>
        && config == Some(Spread(old(config).value, map[value := Bool(checked)]))
        && events == old(events) + [config.value]
    {
      if !Ready() {
        return;
      }
      config := Some(Spread(config.value, map[value := Bool(checked)]));
      events := events + [config.value];
    }
  }

  /** A handler's new configuration differs from the old one in exactly the
      one field it sets. */
  lemma OneFieldChanged(old_config: Object, key: string, v: Value)
    ensures var c := Spread(old_config, map[key := v]);
      && Get(c, key) == v
      && (forall k :: k != key ==> Get(c, k) == Get(old_config, k))
      && c.Keys == old_config.Keys + {key}
  {
  }
}

=== FILE: hass.dfy ===
/**
 * What the host hands the card: entity state records and the state map
 * `hass.states`, keyed by entity id.
 */
module Hass {
  import opened Js

  /** A state record: its id (`light.kitchen`), its lifecycle state (`"on"`,
      `"off"`, ...) and its attribute bag. A record without an attribute bag
      is modelled by the empty bag: every read from it gives `undefined`. */
  datatype Entity = Entity(entity_id: string, state: string, attributes: Object)

  /** `hass.states`: the records by id, and the order in which
      `Object.values` enumerates them. Entity ids are never integer-like, so
      that order is the order of insertion. */
  datatype States = States(order: seq<string>, byId: map<string, Entity>)

  /** `Object.values(states)`. */
  function Values(st: States): seq<Entity>
  {
    ValuesAt(st.order, st.byId)
  }

  /** What the host guarantees of `hass.states`: `Object.values` lists
      every key of the map, each exactly once. */
  predicate ValidStates(st: States) {
    && (forall k :: k in st.byId ==> k in st.order)
    && (forall k :: k in st.order ==> k in st.byId)
    && forall i, j :: 0 <= i < j < |st.order| ==> st.order[i] != st.order[j]
  }

  /** Over a well-formed state map, `Object.values` yields one record per
      key, and a record is enumerated exactly when the map holds it. */
  lemma ValuesOfValidStates(st: States)
    requires ValidStates(st)
    ensures |Values(st)| == |st.order|
    ensures forall e :: e in Values(st) <==> e in st.byId.Values
  {
    forall e | e in st.byId.Values ensures e in Values(st) {
      var k :| k in st.byId && st.byId[k] == e;
    }
  }

  function ValuesAt(keys: seq<string>, byId: map<string, Entity>): (r: seq<Entity>)
    ensures |r| <= |keys|
    ensures (forall k :: k in keys ==> k in byId) ==> |r| == |keys|
    ensures (forall k :: k in keys ==> k in byId) ==> forall i :: 0 <= i < |keys| ==> r[i] == byId[keys[i]]
    ensures forall k :: k in keys && k in byId ==> byId[k] in r
    ensures forall e :: e in r ==> exists k :: k in keys && k in byId && byId[k] == e
  {
    if keys == [] then []
    else (if keys[0] in byId then [byId[keys[0]]] else []) + ValuesAt(keys[1..], byId)
  }
}

=== FILE: js.dfy ===
/**
 * The slice of JavaScript's value model that the card and its editor rely
 * on: configuration fields, entity attributes and event payloads are
 * dynamically typed, so they are modelled as one tagged union, and plain
 * objects as maps from property name to value.
 */
module Js {

  datatype Option<+T> = None | Some(value: T)

  /** An exception a handler or a render pass throws. */
  datatype Error =
    | ConfigError(message: string)  // `throw Error(message)`
    | TypeError                     // a property read or method call on the wrong kind of value

  datatype Result<+T> = Ok(value: T) | Err(error: Error)

  /** A JavaScript value as it occurs in configuration objects, attribute
      bags and events. Numbers are integers here. */
  datatype Value =
    | Undefined
    | Null
    | Bool(b: bool)
    | Num(n: int)
    | Str(s: string)
    | StrList(items: seq<string>)

  /** JavaScript truthiness: `undefined`, `null`, `false`, `0` and `""` are
      falsy; every array, even an empty one, is truthy. */
  predicate Truthy(v: Value)
    ensures Truthy(v) <==> v !in {Undefined, Null, Bool(false), Num(0), Str("")}
  {
    match v
    case Undefined => false
    case Null => false
    case Bool(b) => b
    case Num(n) => n != 0
    case Str(s) => s != ""
    case StrList(_) => true
  }

  /** A plain object: property names to values. */
  type Object = map<string, Value>

  /** Property read `o.key`: an absent property reads as `undefined`. */
  function Get(o: Object, key: string): (v: Value)
    ensures key !in o ==> v == Undefined
    ensures key in o ==> v == o[key]
  {
    if key in o then o[key] else Undefined
  }

  /** Object spread `{ ...base, ...over }`: every property of `over` wins,
      every other property of `base` is kept. */
  function Spread(base: Object, over: Object): (r: Object)
    ensures r.Keys == base.Keys + over.Keys
    ensures forall k :: Get(r, k) == if k in over then over[k] else Get(base, k)
  {
    base + over
  }

  /** `s.split(c)[0]`: the text before the first `c`, or all of `s` when it
      holds no `c`. */
  function Before(s: string, c: char): (r: string)
    ensures r <= s
    ensures c !in r
    ensures r == s || s[|r|] == c
  {
    if s == [] || s[0] == c then [] else [s[0]] + Before(s[1..], c)
  }

  /** `s.indexOf(x)` on an array: the first position holding `x`, or -1. */
  function IndexOf<T(==)>(s: seq<T>, x: T): (r: int)
    ensures -1 <= r < |s|
    ensures r == -1 <==> x !in s
    ensures 0 <= r ==> s[r] == x && x !in s[..r]
  {
    if s == [] then -1
    else if s[0] == x then 0
    else
      var k := IndexOf(s[1..], x);
      if k == -1 then -1 else k + 1
  }

  /** `parts.join(sep)`. */
  function Join(parts: seq<string>, sep: string): string
  {
    if parts == [] then ""
    else if |parts| == 1 then parts[0]
    else parts[0] + sep + Join(parts[1..], sep)
  }
}

=== FILE: js_number.dfy ===
/**
 * Integer conversions of JavaScript that the card uses: `String(n)` for
 * integers, `parseInt(s, 0)` (radix 0 means "decimal unless the text starts
 * with 0x"), and `parseInt(a / b)`, which for integer operands truncates the
 * quotient toward zero.
 */
module JsNumber {
  import opened Js

  function DecimalDigit(d: nat): (c: char)
    requires d < 10
    ensures DigitValue(c) == d
  {
    "0123456789"[d]
  }

  /** The value of `c` as a digit of radix up to 16, or -1 when it is none. */
  function DigitValue(c: char): int
  {
    if '0' <= c <= '9' then c as int - '0' as int
    else if 'a' <= c <= 'f' then c as int - 'a' as int + 10
    else if 'A' <= c <= 'F' then c as int - 'A' as int + 10
    else -1
  }

  predicate IsDigitOf(c: char, radix: nat) {
    0 <= DigitValue(c) < radix
  }

  /** `String(n)` for a natural number: its decimal digits, most significant first. */
  function NatToString(n: nat): (s: string)
    ensures |s| > 0
    ensures forall i :: 0 <= i < |s| ==> IsDigitOf(s[i], 10)
  {
    if n < 10 then [DecimalDigit(n)] else NatToString(n / 10) + [DecimalDigit(n % 10)]
  }

  /** `String(n)` for an integer. */
  function IntToString(n: int): string
  {
    if n < 0 then "-" + NatToString(-n) else NatToString(n)
  }

  /** `String(v)`, which is also how `obj[v]` turns `v` into a property name. */
  function ToJsString(v: Value): (r: string)
    ensures v.Str? ==> r == v.s
    ensures v.Num? ==> ParseInt(r) == Some(v.n)
    ensures !v.Str? && !v.StrList? ==> r != ""
  {
    match v
    case Undefined => "undefined"
    case Null => "null"
    case Bool(b) => if b then "true" else "false"
    case Num(n) => ParseIntOfIntToString(n); IntToString(n)
    case Str(s) => s
    case StrList(items) => Join(items, ",")
  }

  /** The white space `parseInt` skips before the number. */
  predicate IsJsSpace(c: char) {
    c == ' ' || c == '\t' || c == '\n' || c == '\r' || c == '\U{B}' || c == '\U{C}'
    || c == '\U{A0}' || c == '\U{FEFF}' || c == '\U{2028}' || c == '\U{2029}'
    || c == '\U{1680}' || ('\U{2000}' <= c <= '\U{200A}') || c == '\U{202F}' || c == '\U{205F}' || c == '\U{3000}'
  }

  function TrimStart(s: string): (r: string)
    ensures |r| <= |s| && r == s[|s| - |r|..]
    ensures r == [] || !IsJsSpace(r[0])
  {
    if s != [] && IsJsSpace(s[0]) then TrimStart(s[1..]) else s
  }

  /** The longest prefix of `s` made of digits of the given radix. */
  function LeadingDigits(s: string, radix: nat): (r: string)
    ensures r <= s
    ensures forall i :: 0 <= i < |r| ==> IsDigitOf(r[i], radix)
    ensures r == s || !IsDigitOf(s[|r|], radix)
  {
    if s != [] && IsDigitOf(s[0], radix) then [s[0]] + LeadingDigits(s[1..], radix) else []
  }

  /** The number that a string of digits denotes, read most significant first. */
  function DigitsValue(ds: string, radix: nat): nat
    requires forall i :: 0 <= i < |ds| ==> IsDigitOf(ds[i], radix)
  {
    if ds == [] then 0
    else
      var last := ds[|ds| - 1];
      assert IsDigitOf(last, radix);
      DigitsValue(ds[..|ds| - 1], radix) * radix + DigitValue(last)
  }

  /** `parseInt(s, 0)`: skip leading white space, read an optional sign, then
      an optional `0x`/`0X` prefix that switches to radix 16, then as many
      digits as there are. `None` is `NaN`: there was no digit at all. */
  function ParseInt(s: string): (r: Option<int>)
    ensures TrimStart(s) == [] ==> r.None?
    ensures r.Some? && r.value < 0 ==> TrimStart(s)[0] == '-'
  {
    var t := TrimStart(s);
    var signed := t != [] && (t[0] == '-' || t[0] == '+');
    match ParseMagnitude(if signed then t[1..] else t)
    case None => None
    case Some(m) => Some(if t[0] == '-' then -m else m)
  }

  /** The unsigned part of `parseInt`: the radix prefix and the digits. */
  function ParseMagnitude(u: string): Option<int>
  {
    var hex := |u| >= 2 && u[0] == '0' && (u[1] == 'x' || u[1] == 'X');
    var radix := if hex then 16 else 10;
    var ds := LeadingDigits(if hex then u[2..] else u, radix);
    if ds == [] then None else Some(DigitsValue(ds, radix))
  }

  lemma {:induction false} DecimalValueOfNatToString(n: nat)
    ensures DigitsValue(NatToString(n), 10) == n
  {
    var s := NatToString(n);
    if n >= 10 {
      var p := NatToString(n / 10);
      assert s == p + [DecimalDigit(n % 10)];
      assert s[..|s| - 1] == p;
      DecimalValueOfNatToString(n / 10);
    }
  }

  lemma AllDigitsAreLeading(s: string)
    requires forall i :: 0 <= i < |s| ==> IsDigitOf(s[i], 10)
    ensures LeadingDigits(s, 10) == s
  {
  }

  lemma DigitIsNotSign(c: char)
    requires IsDigitOf(c, 10)
    ensures !IsJsSpace(c) && c != '-' && c != '+' && c != 'x' && c != 'X'
  {
  }

  /** A string of decimal digits is read back as the number it denotes. */
  lemma ParseMagnitudeOfDigits(digits: string)
    requires digits != []
    requires forall i :: 0 <= i < |digits| ==> IsDigitOf(digits[i], 10)
    ensures ParseMagnitude(digits) == Some(DigitsValue(digits, 10))
  {
    AllDigitsAreLeading(digits);
    var hex := |digits| >= 2 && digits[0] == '0' && (digits[1] == 'x' || digits[1] == 'X');
    if |digits| >= 2 {
      DigitIsNotSign(digits[1]);
    }
    assert !hex;
    assert LeadingDigits(digits, 10) == digits;
    assert ParseMagnitude(digits) == Some(DigitsValue(LeadingDigits(digits, 10), 10));
  }

  /** A text that does not start with white space is not trimmed. */
  lemma TrimStartKeeps(s: string)
    requires s != [] && !IsJsSpace(s[0])
    ensures TrimStart(s) == s
  {
  }

  /** A run of decimal digits is read back as the number it denotes. */
  lemma ParseIntOfDigits(digits: string)
    requires digits != []
    requires forall i :: 0 <= i < |digits| ==> IsDigitOf(digits[i], 10)
    ensures ParseInt(digits) == Some(DigitsValue(digits, 10) as int)
  {
    ParseMagnitudeOfDigits(digits);
    DigitIsNotSign(digits[0]);
    TrimStartKeeps(digits);
  }

  /** A minus sign before a magnitude negates it. */
  lemma ParseIntOfMinus(t: string, k: int)
    requires t != [] && t[0] == '-'
    requires ParseMagnitude(t[1..]) == Some(k)
    ensures ParseInt(t) == Some(-k)
  {
    TrimStartKeeps(t);
  }

  /** Reading back what `String(n)` printed gives `n`: a slider value that
      arrives as a number survives `parseInt` unchanged. */
  lemma ParseIntOfIntToString(n: int)
    ensures ParseInt(IntToString(n)) == Some(n)
  {
    var m: nat := if n < 0 then -n else n;
    DecimalValueOfNatToString(m);
    if n < 0 {
      var t := IntToString(n);
      assert t[0] == '-' && t[1..] == NatToString(m);
      ParseMagnitudeOfDigits(NatToString(m));
      ParseIntOfMinus(t, m);
    } else {
      ParseIntOfDigits(NatToString(m));
    }
  }

  function Abs(x: int): nat { if x < 0 then -x else x }

  /** `parseInt(a / b)` for integers `a` and `b != 0`: the exact quotient
      truncated toward zero, so its magnitude is the floor of the magnitudes'
      quotient and its sign is the product of the operands' signs (Dafny's own
      `/` instead rounds toward negative infinity for a positive divisor). */
  function TruncDiv(a: int, b: int): (q: int)
    requires b != 0
    ensures Abs(q) == Abs(a) / Abs(b)
    ensures q == 0 || (q > 0 <==> (a > 0) == (b > 0))
  {
    var q0 := Abs(a) / Abs(b);
    NaturalQuotient(Abs(a), Abs(b));
    if (a >= 0) == (b > 0) then q0 else -q0
  }

  lemma NaturalQuotient(x: nat, y: nat)
    requires y > 0
    ensures x / y >= 0
    ensures x == 0 ==> x / y == 0
  {
  }
}

=== FILE: utils.dfy ===
/**
 * The lookup helpers shared by the card and its editor: the display name of
 * an entity, the first entity with a given display name, and the entity
 * with a given id.
 */
module Utils {
  import opened Js
  import opened Hass

  /** `===` between two values. Two arrays are equal only when they are the
      same object, and no two arrays met here are, so arrays never match. */
  predicate StrictEquals(a: Value, b: Value) {
    a == b && !a.StrList?
  }

  /** `getEntityName`: the `friendly_name` attribute when it is truthy,
      otherwise the entity id. */
  function EntityName(e: Entity): (name: Value)
    ensures Truthy(Get(e.attributes, "friendly_name")) ==> name == Get(e.attributes, "friendly_name")
    ensures !Truthy(Get(e.attributes, "friendly_name")) ==> name == Str(e.entity_id)
    ensures Truthy(name) || name == Str("")
  {
    var friendly := Get(e.attributes, "friendly_name");
    if Truthy(friendly) then friendly else Str(e.entity_id)
  }

  predicate HasName(e: Entity, name: Value) {
    StrictEquals(EntityName(e), name)
  }

  /** The position `Array.prototype.find` stops at: the first entity whose
      display name is `name`, or -1 when there is none. */
  function FirstNamed(values: seq<Entity>, name: Value): (i: int)
    ensures -1 <= i < |values|
    ensures i == -1 <==> forall e :: e in values ==> !HasName(e, name)
    ensures 0 <= i ==> HasName(values[i], name)
    ensures 0 <= i ==> forall j :: 0 <= j < i ==> !HasName(values[j], name)
  {
    if values == [] then -1
    else if HasName(values[0], name) then 0
    else
      var k := FirstNamed(values[1..], name);
      assert forall e :: e in values ==> e == values[0] || e in values[1..];
      if k == -1 then -1 else k + 1
  }

  /** `getEntityByName`: `Object.values(states).find(e => getEntityName(e) === name)`. */
  function EntityByName(st: States, name: Value): (r: Option<Entity>)
    ensures r.Some? ==> HasName(r.value, name) && r.value in Values(st)
    ensures r.None? <==> forall e :: e in Values(st) ==> !HasName(e, name)
  {
    var values := Values(st);
    var i := FirstNamed(values, name);
    if i == -1 then None else Some(values[i])
  }

  /** `getEntityById`: `states[eid]`, `undefined` when the id is absent. */
  function EntityById(st: States, eid: string): (r: Option<Entity>)
    ensures eid in st.byId <==> r.Some?
    ensures r.Some? ==> r.value == st.byId[eid]
  {
    if eid in st.byId then Some(st.byId[eid]) else None
  }

  /** The entity found by name carries that name, comes from the state map,
      and no entity enumerated before it carries the name; not-found means
      that no entity carries it. Over a well-formed state map, "enumerated"
      is "held by the map". */
  lemma EntityByNameIsFirstMatch(st: States, name: Value)
    ensures EntityByName(st, name).None? <==> forall e :: e in Values(st) ==> !HasName(e, name)
    ensures EntityByName(st, name).Some? ==>
      var e := EntityByName(st, name).value;
      && HasName(e, name)
      && e in Values(st)
      && exists i :: 0 <= i < |Values(st)| && Values(st)[i] == e
          && forall j :: 0 <= j < i ==> !HasName(Values(st)[j], name)
    ensures ValidStates(st) ==>
      && (EntityByName(st, name).None? <==> forall k :: k in st.byId ==> !HasName(st.byId[k], name))
      && (EntityByName(st, name).Some? ==> EntityByName(st, name).value in st.byId.Values)
  {
    var i := FirstNamed(Values(st), name);
    if i != -1 {
      assert Values(st)[i] == EntityByName(st, name).value;
    }
    if ValidStates(st) {
      ValuesOfValidStates(st);
      forall k | k in st.byId && EntityByName(st, name).None? ensures !HasName(st.byId[k], name) {
        assert st.byId[k] in st.byId.Values;
      }
    }
  }

  /** Lookup by id and lookup by name agree: whenever some enumerated entity
      has the name, lookup by name finds an entity that lookup by id also
      finds under one of the enumerated ids. */
  lemma EntityByNameAgreesWithById(st: States, name: Value, k: string)
    requires k in st.order && EntityById(st, k).Some? && HasName(EntityById(st, k).value, name)
    ensures EntityByName(st, name).Some?
    ensures exists k' :: k' in st.order && EntityById(st, k') == EntityByName(st, name)
  {
    var e := st.byId[k];
    assert e in Values(st);
    var found := EntityByName(st, name).value;
    assert found in Values(st);
  }
}
